=== FILE: README.md ===
# econote core, modelled in Dafny

econote is a small Flask shop with user accounts, subscriptions, a product
catalog, a session cart with checkout, and one configured administrator. This
project models the parts of it that make decisions or change stored state:

- **Subscriptions.** The model-layer rule `create_subscription` cancels the user's
  Active rows and builds a new one. The `is_active` expiry test and the
  `active_subscription` lookup sit beside it. The subscription routes cover
  `subscribe` (a bulk `Inactive` update, then an insert), `cancel_subscription`,
  the dashboard listing and `update_payment`. Both the model layer and the routes
  are proved to keep the invariant that a user has at most one Active row.
- **Orders and the cart.** `Order.create_order` totals the cart and copies each
  line's price at the time of the order. The session cart is append-only and
  its total is the sum of its prices. Checkout refuses an empty cart, records
  one Completed order and clears the cart only after the commit.
- **Catalog.** `reduce_stock` guards against taking more than the stock.
  `update` applies a partial patch of fields.
- **Credentials.** The password-strength rule is modelled, with the setter that
  raises on a weak password. User login and registration are modelled too:
  registration keeps e-mails unique and ids distinct.
- **Administrator.** The admin-only gate, the admin login with its `next`-page
  guard, and product creation. `Admin.get_id` and `get_admin` are modelled, as is
  `update_last_login`.
- **Session loading.** `load_user` decides by the `admin_` prefix. It round-trips
  with `Admin.get_id` and with a user's `str(id)`.

Modelling conventions:

- Tables are objects holding a sequence of rows. Users, admins and products are
  objects whose mutable columns are fields.
- Time is an integer count of seconds passed in as `now`.
- Prices are integer cents.
- A transaction that fails is a `commitOk = false` input, and its rollback
  leaves the state unchanged.
- bcrypt is a parameter. `checkPassword(hash, plaintext)` stands for the check,
  and a caller-supplied `hashed` string stands for the new hash.
- `request.form.get` yields an `Option<string>`, and Python's falsiness of a
  form field is `Blank`.
- An exception that nothing catches is the response `Crashed`. In `load_user` the same uncaught error (`int()` raising `ValueError` on a malformed id) is the result `BadId`.

## Model

| member | source | states |
|---|---|---|
| SubscriptionModel.IsActive | app/models/subscription.py:59-65 | a subscription is in force only when Active; an Active one is in force when it has no end date or the end date is still ahead; one whose end date has passed is never in force |
| SubscriptionModel.ExpiryIsPermanent | app/models/subscription.py:62-65 | a subscription that is not in force at some time is not in force at any later time |
| SubscriptionModel.ActiveCountZero | app/models/subscription.py:41-47 | a user has no Active row exactly when the count of their Active rows is zero |
| SubscriptionModel.ActiveCountAppend | app/models/subscription.py:52-57 | inserting a row raises a user's Active count by one exactly when the row is an Active row of that user |
| SubscriptionModel.ActiveCountAfterRetire | app/models/subscription.py:40-47 | once a user's Active rows are retired, that user has no Active row and every other user's count is unchanged |
| SubscriptionModel.InsertAfterRetireLeavesOneActive | app/models/subscription.py:40-57 | retiring the user's Active rows and then inserting the new Active row leaves exactly one Active row for the user (the new one), and keeps at most one Active row for every user |
| SubscriptionModel.ActiveCountRetireOne | app/routes/subscription.py:140-142 | moving one Active row to another status lowers its user's Active count by one and leaves every other user's count unchanged |
| SubscriptionModel.CancelActive | app/models/subscription.py:40-47 | each Active row of the user becomes Cancelled with its end date kept; every other row is untouched |
| SubscriptionModel.CreateTwice | app/models/subscription.py:31-57 | after two creations in a row (each result inserted), the first subscription is Cancelled and the second is the user's only Active row |
| SubscriptionModel.SubscriptionTable.CreateSubscription | app/models/subscription.py:31-57 | the table becomes `CancelActive` of the old table; the returned row is Active, for the given user and plan id, starts now and ends `duration_months * 30` days from now |
| SubscriptionModel.SubscriptionTable.Insert | app/routes/subscription.py:46-47 | adding a row and committing appends it to the table |
| SubscriptionModel.SubscriptionTable.CreateAndPersist | app/models/subscription.py:31-57 | creating a subscription and persisting it: the table becomes `CancelActive` of the old table plus the new Active row, which is the user's only Active row, and at most one Active row per user is preserved |
| SubscriptionRoutes.DeactivateActive | app/routes/subscription.py:28-35 | each Active row of the user becomes Inactive with end date now; every other row is untouched |
| SubscriptionRoutes.LayersRetireDifferently | app/routes/subscription.py:29-35 | the route layer and the model layer retire the same rows differently: the route marks them Inactive and ends them now, the model marks them Cancelled and keeps their end date |
| SubscriptionRoutes.Subscribe | app/routes/subscription.py:14-57 | the login and empty-plan guards change nothing; on success the table is the deactivated table plus one 30-day Active row for the plan, and that row is the user's active subscription; a failed commit restores the table; at most one Active row per user is preserved |
| SubscriptionRoutes.CancelSubscription | app/routes/subscription.py:125-154 | the user's first Active row becomes Cancelled with end date now, and the user's Active count drops by one; with no Active row, or a failed commit, nothing changes; the one-Active invariant is preserved |
| SubscriptionRoutes.OfUser | app/routes/subscription.py:69-70 | the result holds exactly the rows of the user, each as many times as the table holds it, and no row of another user |
| SubscriptionRoutes.InsertByStart | app/routes/subscription.py:71-73 | inserting into a list sorted by start date, latest first, keeps it sorted and adds exactly that row |
| SubscriptionRoutes.SortByStartDesc | app/routes/subscription.py:69-73 | the result is sorted latest start first and is a permutation of the input |
| SubscriptionRoutes.Dashboard | app/routes/subscription.py:59-86 | a logged-in user sees a permutation of their own rows (each row as often as the table holds it), latest start first, together with their first Active row; anyone else is sent to log in |
| SubscriptionRoutes.ParseBilling | app/routes/subscription.py:109-113 | billing details exist exactly when the expiry contains `/`; last4 is the card's last (up to) four characters; month and year are the first two `/`-separated pieces: the expiry opens with `month/year`, and the year runs up to the next `/` or the end of the expiry |
| SubscriptionRoutes.ParseBillingExample | app/routes/subscription.py:109-113 | `12/27` gives month `12` and year `27`, and an expiry without `/` gives no details |
| SubscriptionRoutes.UpdatePayment | app/routes/subscription.py:88-123 | no session user is sent to login; a missing field is rejected; the update succeeds exactly when the user exists, the expiry has a `/` and the commit succeeds, and every other request with all fields present gets the payment-failed response; only that user's billing details change; no password hash changes |
| UserModel.HasCharIn | app/models/user.py:44-48 | true exactly when some character of the string lies in the range |
| UserModel.ValidatePassword | app/models/user.py:33-50 | a password is accepted exactly when it has at least 8 characters, an upper-case letter, a lower-case letter and a digit (each direction stated) |
| UserModel.StrongPasswordExample | app/models/user.py:42-50 | `Secret123` is accepted |
| UserModel.ShortPasswordExample | app/models/user.py:42-43 | a 7-character password is refused |
| UserModel.DigitlessPasswordExample | app/models/user.py:48-49 | a password without a digit is refused |
| UserModel.User.constructor | app/routes/auth.py:59 | a new user carries the given name, e-mail and address and has no billing details |
| UserModel.User.SetPassword | app/models/user.py:23-27 | the call succeeds exactly when the password passes the strength rule; on success the new hash is stored, otherwise the old hash is kept |
| UserModel.ActiveSubscription | app/models/user.py:52-55 | returns the user's first row in table order whose stored status is Active, or nothing exactly when there is no such row |
| UserModel.ActiveSubscriptionIgnoresExpiry | app/models/user.py:55 | an Active row whose end date has passed is still returned, though `is_active` is false for it |
| UserModel.ActiveSubscriptionAfterInsert | app/models/user.py:52-55 | after the user's Active rows are retired and a new Active row is inserted, the user's active subscription is the new row |
| UserModel.FindByEmail | app/routes/auth.py:23 | a row found has that e-mail; nothing is found exactly when no row has it |
| UserModel.FindById | app/routes/subscription.py:96 | a row found has that id; nothing is found exactly when no row has it |
| AuthRoutes.Login | app/routes/auth.py:8-32 | empty fields are rejected; the admin e-mail is sent to the admin login; otherwise login succeeds exactly when a user has that e-mail and the password checks against that user's hash, and then it is that user who is logged in; every other such POST gets the invalid-credentials response |
| AuthRoutes.Register | app/routes/auth.py:34-73 | registration succeeds exactly when all fields are present, the passwords match, the e-mail is unused, the password is strong and the commit succeeds; a GET shows the form; a missing field, a mismatched confirmation and a taken e-mail each get their own refusal, and past those a weak password or a failed commit gets the registration-failed response; on success exactly one fresh user with the given fields and the new hash is appended; otherwise the table is unchanged; unique e-mails and distinct ids are preserved |
| ProductModel.PatchOverwritesOnlyGivenFields | app/models/product.py:30-43 | each field is overwritten exactly when its argument is given; the other fields keep their values |
| ProductModel.PatchIdentityAndIdempotence | app/models/product.py:30-43 | an update without arguments changes nothing, and applying one update twice equals applying it once |
| ProductModel.Product.constructor | app/models/product.py:13-14 | a new product has the given fields, stock 0 and is active, so it is not in stock |
| ProductModel.Product.IsInStock | app/models/product.py:19-22 | a product is in stock exactly when its stock is positive |
| ProductModel.Product.ReduceStock | app/models/product.py:24-28 | succeeds exactly when the quantity is at most the stock; then stock drops by the quantity and is not negative, otherwise it is unchanged; the product stays in stock exactly when less than the whole stock was taken |
| ProductModel.Product.Update | app/models/product.py:30-43 | the product's fields become the patch applied to the old fields |
| ProductModel.FindProduct | app/routes/shop.py:21 | a product found has that id; nothing is found exactly when no product has it |
| OrderModel.CreateOrder | app/models/order.py:31-58 | a Pending order of the user whose total is the sum of price times quantity, with one item per cart line in cart order, each copying the line's product, quantity and price; the items add up to the total |
| OrderModel.SnapshotKeepsTotal | app/models/order.py:40-57 | the copied items add up to the same total as the cart lines |
| OrderModel.LinesTotal | app/models/order.py:40 | with non-negative prices and quantities the order total is non-negative and at least every line's price times quantity |
| OrderModel.EmptyCartTotal | app/models/order.py:40 | an empty cart totals 0 |
| OrderModel.TwoLineOrderExample | app/models/order.py:40-57 | lines (10 × 2) and (5 × 1) give an order of total 25 whose two items keep their quantities |
| ShopRoutes.CartTotal | app/routes/shop.py:42 | the cart total (also the checkout total at app/routes/shop.py:59): with non-negative prices it is non-negative and at least every entry's price |
| ShopRoutes.CartTotalAppend | app/routes/shop.py:42 | appending an entry raises the cart total by exactly its price |
| ShopRoutes.DuplicateAddsCountTwice | app/routes/shop.py:24-30 | adding the same product twice adds two entries and counts its price twice |
| ShopRoutes.CartLines | app/routes/shop.py:63-68 | one order item per cart entry, in cart order, with quantity 1 and the entry's product id and price (the title is not stored) |
| ShopRoutes.CartLinesTotal | app/routes/shop.py:59-67 | the stored order items add up to the cart total |
| ShopRoutes.ShopSession.AddToCart | app/routes/shop.py:14-33 | a visitor who is not logged in, or an unknown product, leaves the cart unchanged; otherwise exactly one `{id, title, price}` entry for the product is appended and the total rises by its price |
| ShopRoutes.ShopSession.ViewCart | app/routes/shop.py:35-44 | a logged-in visitor sees the cart and its total; anyone else is sent to log in |
| ShopRoutes.ShopSession.Checkout | app/routes/shop.py:46-83 | not logged in or an empty cart changes nothing; a POST with a successful commit appends one Completed order whose total is the cart total and then empties the cart; a GET or a failed commit keeps cart and orders and shows the same total; orders whose items add up to their total stay that way |
| AdminModel.Admin.constructor | app/models/admin.py:58-67 | a new admin carries the given fields and has no last-login time |
| AdminModel.Admin.UpdateLastLogin | app/models/admin.py:77-80 | the last-login time becomes now; no other field changes |
| AdminModel.Admin.GetId | app/models/admin.py:87-89 | the id string starts with `admin_`, its remainder has no underscore and reads back as the admin's id |
| AdminModel.GetAdmin | app/models/admin.py:82-85 | returns the first admin whose e-mail is the configured admin e-mail, or nothing exactly when there is none |
| AdminModel.FindAdminById | app/__init__.py:44 | an admin found has that id; nothing is found exactly when no admin has it |
| AdminRoutes.LoginRequired | app/routes/admin.py:56-58 | lets the call through exactly when the caller is authenticated; otherwise it redirects to the user login |
| AdminRoutes.AdminRequired | app/routes/admin.py:11-18 | lets the call through exactly when the caller is an authenticated administrator; otherwise it redirects to the admin login |
| AdminRoutes.AfterLoginTarget | app/routes/admin.py:40-43 | follows `next` exactly when it is non-empty and starts with `/admin`, so the target path starts with `/admin` (a prefix test only: `/administrator` passes too); otherwise it goes to the dashboard |
| AdminRoutes.AdminLogin | app/routes/admin.py:20-47 | a logged-in admin goes to the dashboard; another e-mail is refused without a password check; a GET shows the form; with the admin e-mail, a missing admin row or a password that does not check gets the invalid-password response and a missing password raises; login succeeds exactly when the admin row exists and the password checks, and then that admin's last-login time becomes now and the caller goes to `AfterLoginTarget(next)`; no other admin's last-login time and no password hash changes |
| AdminRoutes.SubmitProduct | app/routes/admin.py:60-82 | a missing price raises and an unparsable one is refused, both without inserting; a product is added exactly when the price parses, title and description are present and the commit succeeds, and with a parsed price every other outcome is the add-failed response; on success exactly one fresh product with those fields, stock 0 and active, is appended; distinct ids are preserved |
| AdminRoutes.AddProduct | app/routes/admin.py:56-82 | an anonymous caller is sent to login and a plain user to the admin login; an administrator's GET shows the form; an administrator's POST raises on a missing price, is refused on an unparsable one and otherwise either adds the product (exactly when title and description are present and the commit succeeds) or gets the add-failed response; on success exactly one fresh product with those fields, stock 0 and active, is appended; otherwise the catalog is unchanged |
| LegacyAdmin.LegacyAdminRequired | app/models/admin.py:15-21 | as written: an anonymous caller gets 403, and any authenticated caller hits the missing `is_admin` attribute |
| LegacyAdmin.LegacyGateLocksOutAdmins | app/models/admin.py:18-19 | behind `login_required` the gate as written lets no caller through, an administrator included |
| LegacyAdmin.IntendedAdminRequired | app/models/admin.py:15-21 | lets the call through exactly when the caller is an authenticated administrator; otherwise 403 |
| LegacyAdmin.IntendedGateAgreesWithRouteGate | app/models/admin.py:18 | the corrected gate admits exactly the callers the route layer's `admin_required` admits |
| LegacyAdmin.LegacyAddProduct | app/models/admin.py:30-56 | this file's `add_product` run behind the corrected gate `IntendedAdminRequired` (as written, nobody reaches it): an anonymous caller is sent to login and a plain user is forbidden; an administrator's GET shows the form; an administrator's POST raises on a missing price, is refused on an unparsable one and otherwise either adds the product (exactly when title and description are present and the commit succeeds) or gets the add-failed response; on success exactly one fresh product is appended; otherwise the catalog is unchanged |
| UserLoader.LoadUser | app/__init__.py:39-46 | an id names an admin exactly when it starts with `admin_` and a user otherwise; it is refused exactly when its numeric part does not parse; a row returned has the parsed id and comes from its table, and none is returned only when no row has that id |
| UserLoader.PrefixedIdHasSecondPiece | app/__init__.py:42-43 | an id starting with `admin_` splits on `_` into at least two pieces, so `[1]` exists |
| UserLoader.AdminIdRoundTrip | app/__init__.py:42-44 | loading `Admin.get_id()` looks up that admin's id, and finds an admin with that id when the admin is in the table |
| UserLoader.IntToStringIsNotAdminId | app/__init__.py:42 | a formatted integer never starts with `admin_` |
| UserLoader.UserIdRoundTrip | app/__init__.py:46 | loading `str(user.id)` looks up that user's id, and finds a user with that id when the user is in the table |
| UserLoader.TrailingPiecesIgnored | app/__init__.py:43 | only the second `_`-piece is read: `admin_<n>_<anything>` loads admin `n` |
| UserLoader.MalformedAdminIdRefused | app/__init__.py:43 | `admin_` followed by text that is not an integer is refused |
| Strings.LastFour | app/routes/subscription.py:110 | the result has min(4, length) characters and is the string's tail |
| Strings.Split | app/__init__.py:43 | at least one piece, none containing the separator; one piece exactly when the separator is absent |
| Strings.JoinSplit | app/routes/subscription.py:111-112 | joining the pieces of a split gives the string back |
| Strings.SplitJoin | app/routes/subscription.py:111-112 | separator-free pieces are recovered by splitting their join |
| Strings.SplitAtFirst | app/__init__.py:43 | the text before the first separator is the first piece |
| Strings.SplitFirstTwo | app/routes/subscription.py:111-112 | a string containing the separator starts with its first piece, the separator and its second piece |
| Strings.IntToString | app/models/admin.py:89 | the decimal text of an integer: non-empty, starting with `-` exactly for a negative number, digits otherwise |
| Strings.ParseInt | app/__init__.py:43-46 | `int()` of a string: a string of digits parses to its decimal value; a parsed string ends in a digit; a negative result needs a leading `-`; a string starting with anything but a sign or a digit is refused |
| Strings.ParseIntOfIntToString | app/models/admin.py:89 | `int(str(n)) == n` for every integer |
| Strings.IntToStringHasNoSeparator | app/models/admin.py:89 | a formatted integer contains no `_` and no `/` |
| Tables.FirstIndex | app/routes/subscription.py:135-138 | the index of the first row matching the filter, or none exactly when no row matches |
| Tables.NextKey | app/models/product.py:8 | a new primary key is positive and larger than every existing key |
| Tables.NextKeyKeepsKeysDistinct | app/models/product.py:8 | appending the new key keeps the keys distinct |

## Left out

- bcrypt is not modelled. Hashing and checking are parameters, so the round trip of `set_password` followed by `check_password` is not stated.
- `float(price)` is modelled by its outcome: no field (TypeError), not a number (ValueError), or a value in integer cents. Floating-point arithmetic in totals and prices is not modelled.
- The wall clock is not modelled. `datetime.utcnow()`, `datetime.now()` and `func.current_timestamp()` are all the one `now` input, in seconds.
- Flash messages, templates and the `json.dumps(cart)` text are not modelled. A checkout order's items are modelled as one quantity-1 order item per cart entry, in cart order, keeping its product id and price. The entry's title, which the JSON also holds, is not stored.
- Three ORM mismatches are modelled as evidently intended. The subscribe route passes `plan=` (the relationship is `plan_details`), so the stored plan is the form string (`PlanName`). The checkout passes `items=` a string. The billing details are not a column.
- `session['user_id']` and the session cart are inputs. The login routes set flask_login's own key, not this one, and nothing here ties the two together.
- The principal `current_user` is an input (`Principal`). flask_login's `is_active`, remember-me cookie and `logout` views are not modelled.
- Strings.ParseInt: Python's `int()` also accepts surrounding whitespace, `_` digit separators and non-ASCII decimal digits; the model accepts only ASCII digits after an optional sign.
- UserModel.ValidatePassword: the `\d`, `[A-Z]` and `[a-z]` classes are taken as ASCII ranges; Python's `\d` also matches non-ASCII decimal digits, which the model does not count as digits.
- Relationship collections (`user.subscriptions`) are taken in table order; the database gives no order.
- The dashboard's `User.query.get` result only feeds the template, so the model leaves it out.
- Concurrency, the checkout stock race and database constraints other than NOT NULL on product title and description are not modelled.
- The two code paths that retire a user's Active rows are kept as written, not unified into one policy. `subscribe` marks the old rows Inactive and ends them now. `create_subscription` marks them Cancelled and keeps their end dates. `LayersRetireDifferently` states the difference.

## Findings

| source | as written | input that shows it | evidently intended | confidence | as-written member | corrected member |
|---|---|---|---|---|---|---|
| app/models/admin.py:18 | `admin_required` reads `current_user.is_admin`, which neither `User`, `Admin` nor `UserMixin` defines, so any authenticated caller gets an AttributeError; anonymous callers are already redirected by `login_required` | an administrator logged in as `Admin` calling this file's `add_product`; the blueprint it belongs to is never registered (app/__init__.py:53,59 register only the one in app/routes/admin.py), so the defect is latent | let authenticated administrators through and answer 403 to everyone else, as the route layer's `isinstance` check does | high, not executed | LegacyAdmin.LegacyAdminRequired, LegacyAdmin.LegacyGateLocksOutAdmins | LegacyAdmin.IntendedAdminRequired, LegacyAdmin.IntendedGateAgreesWithRouteGate |

=== FILE: admin_model.dfy ===
/**
 * The administrator account (app/models/admin.py, the `Admin` model): its
 * session id string, the lookup of the configured administrator, and the
 * last-login stamp. bcrypt is not modelled.
 */
module AdminModel {
  import opened Wrappers
  import opened Strings
  import Tables
  import Config

  /** The prefix that marks an administrator's session id. */
  const ADMIN_ID_PREFIX: string := "admin_"

  class Admin {
    const id: int
    const name: string
    const email: string
    var passwordHash: string
    var lastLogin: Option<int>

    constructor (id: int, name: string, email: string, passwordHash: string)
      ensures this.id == id && this.name == name && this.email == email
      ensures this.passwordHash == passwordHash && lastLogin == None
    {
      this.id := id;
      this.name := name;
      this.email := email;
      this.passwordHash := passwordHash;
      lastLogin := None;
    }

    /** `Admin.update_last_login`: stamps the login time; no other field changes. */
    method UpdateLastLogin(now: int)
      modifies this`lastLogin
      ensures lastLogin == Some(now)
    {
      lastLogin := Some(now);
    }

    /**
     * `Admin.get_id`: the prefix `admin_` followed by the decimal id. The part
     * after the prefix holds no underscore and reads back as the id.
     */
    function GetId(): (r: string)
      ensures StartsWith(r, ADMIN_ID_PREFIX)
      ensures '_' !in r[|ADMIN_ID_PREFIX|..]
      ensures ParseInt(r[|ADMIN_ID_PREFIX|..]) == Some(id)
    {
      var r := ADMIN_ID_PREFIX + IntToString(id);
      assert r[|ADMIN_ID_PREFIX|..] == IntToString(id);
      IntToStringHasNoSeparator(id, '_');
      ParseIntOfIntToString(id);
      r
    }
  }

  /** `Admin.get_admin()`: the first admin row whose e-mail is the configured one. */
  function GetAdmin(admins: seq<Admin>): (r: Option<Admin>)
    ensures r.Some? ==> exists i :: 0 <= i < |admins| && admins[i] == r.value
                          && admins[i].email == Config.ADMIN_EMAIL
                          && forall j :: 0 <= j < i ==> admins[j].email != Config.ADMIN_EMAIL
    ensures r.None? <==> forall i :: 0 <= i < |admins| ==> admins[i].email != Config.ADMIN_EMAIL
  {
    match Tables.FirstIndex(admins, (a: Admin) => a.email == Config.ADMIN_EMAIL)
    case None => None
    case Some(i) => Some(admins[i])
  }

  /** `Admin.query.get(id)`: a first-match lookup by id over `Tables.First`, like `UserModel.FindById`. */
  function FindAdminById(admins: seq<Admin>, id: int): (r: Option<Admin>)
    ensures r.Some? ==> r.value in admins && r.value.id == id
    ensures r.None? <==> forall i :: 0 <= i < |admins| ==> admins[i].id != id
  {
    Tables.First(admins, (a: Admin) => a.id == id)
  }

  class AdminTable {
    var rows: seq<Admin>

    constructor ()
      ensures rows == []
    {
      rows := [];
    }
  }
}

=== FILE: admin_routes.dfy ===
/**
 * The administrator pages (app/routes/admin.py): the `admin_required` gate,
 * the admin login decision with its `next`-page guard, and product creation.
 * `checkPassword(hash, plaintext)` stands for bcrypt's check. The price form
 * field arrives as what `float(price)` makes of it, in integer cents.
 */
module AdminRoutes {
  import opened Wrappers
  import opened Strings
  import opened Identity
  import opened AdminModel
  import opened ProductModel
  import Tables
  import Config

  /** `float(price)` on the submitted field: no field (TypeError), not a number (ValueError), or a value. */
  datatype PriceInput = NoPrice | BadPrice | Price(cents: int)

  datatype Response =
    | ToLogin
    | ToAdminLogin
    | Forbidden
    | Crashed
    | ToDashboard
    | ToNext(path: string)
    | AdminLoginPage
    | InvalidAdminCredentials
    | InvalidPassword
    | AddProductPage
    | InvalidPrice
    | ProductAdded
    | AddProductFailed

  /** flask_login's `login_required`: anonymous callers go to the user login page; `None` lets the call through. */
  function LoginRequired(p: Principal): (r: Option<Response>)
    ensures r.None? <==> p.IsAuthenticated()
    ensures r.Some? ==> r.value == ToLogin
  {
    if p.IsAuthenticated() then None else Some(ToLogin)
  }

  /**
   * `admin_required`: lets the call through (`None`) exactly when the caller
   * is authenticated and an `Admin`; everyone else goes to the admin login.
   */
  function AdminRequired(p: Principal): (r: Option<Response>)
    ensures r.None? <==> p.AdminPrincipal?
    ensures r.Some? ==> r.value == ToAdminLogin
  {
    if !p.IsAuthenticated() || !p.AdminPrincipal? then Some(ToAdminLogin) else None
  }

  /**
   * Where a successful admin login goes: the `next` page when it is non-empty
   * and starts with `/admin`, else the dashboard. The test is a plain prefix
   * test: `/administrator` and `/admin/../shop` pass it too.
   */
  function AfterLoginTarget(next: Option<string>): (r: Response)
    ensures r.ToNext? <==> next.Some? && next.value != "" && StartsWith(next.value, "/admin")
    ensures r.ToNext? ==> r.path == next.value && StartsWith(r.path, "/admin")
    ensures !r.ToNext? ==> r == ToDashboard
  {
    if next.Some? && next.value != "" && StartsWith(next.value, "/admin") then ToNext(next.value) else ToDashboard
  }

  /** The admin login succeeds: a POST with the configured e-mail, an admin row for it and a password that checks. */
  predicate AdminLoginSucceeds(admins: seq<Admin>, current: Principal, req: Method, email: Option<string>,
                               password: Option<string>, checkPassword: (string, string) -> bool)
    reads set i | 0 <= i < |admins| :: admins[i]
  {
    && !current.AdminPrincipal? && req == Post && email == Some(Config.ADMIN_EMAIL)
    && GetAdmin(admins).Some? && password.Some?
    && checkPassword(GetAdmin(admins).value.passwordHash, password.value)
  }

  /**
   * The admin `login` view: an admin already logged in goes to the dashboard;
   * an e-mail other than the configured one is refused without a password
   * check; the login succeeds exactly when the admin row exists and the
   * password checks, and then only that row's last-login time changes and the
   * caller is sent to `AfterLoginTarget(next)`. A missing password reaches
   * bcrypt as `None` and raises.
   */
  method AdminLogin(admins: AdminTable, current: Principal, req: Method, email: Option<string>,
                    password: Option<string>, next: Option<string>, now: int,
                    checkPassword: (string, string) -> bool) returns (out: Response)
    modifies admins.rows
    ensures current.AdminPrincipal? ==> out == ToDashboard
    ensures !current.AdminPrincipal? && req == Get ==> out == AdminLoginPage
    ensures !current.AdminPrincipal? && req == Post && email != Some(Config.ADMIN_EMAIL) ==> out == InvalidAdminCredentials
    ensures (!current.AdminPrincipal? && req == Post && email == Some(Config.ADMIN_EMAIL)
             && GetAdmin(admins.rows).Some? && password.None?) ==> out == Crashed
    ensures (!current.AdminPrincipal? && req == Post && email == Some(Config.ADMIN_EMAIL)
             && (GetAdmin(admins.rows).None?
                 || (password.Some? && !old(AdminLoginSucceeds(admins.rows, current, req, email, password, checkPassword)))))
            ==> out == InvalidPassword
    ensures old(AdminLoginSucceeds(admins.rows, current, req, email, password, checkPassword)) ==>
              && out == AfterLoginTarget(next)
              && GetAdmin(admins.rows).value.lastLogin == Some(now)
    ensures !old(AdminLoginSucceeds(admins.rows, current, req, email, password, checkPassword)) ==>
              out in {ToDashboard, AdminLoginPage, InvalidAdminCredentials, Crashed, InvalidPassword}
              && (out == ToDashboard ==> current.AdminPrincipal?)
    ensures forall a :: a in admins.rows ==> a.passwordHash == old(a.passwordHash)
    ensures forall a :: (a in admins.rows &&
              !(old(AdminLoginSucceeds(admins.rows, current, req, email, password, checkPassword))
                && a == GetAdmin(admins.rows).value)) ==> a.lastLogin == old(a.lastLogin)
  {
    if current.IsAuthenticated() && current.AdminPrincipal? {
      return ToDashboard;
    }
    if req == Get {
      return AdminLoginPage;
    }
    if email != Some(Config.ADMIN_EMAIL) {
      return InvalidAdminCredentials;
    }
    var admin := GetAdmin(admins.rows);
    if admin.None? {
      return InvalidPassword;
    }
    if password.None? {
      return Crashed;
    }
    if checkPassword(admin.value.passwordHash, password.value) {
      admin.value.UpdateLastLogin(now);
      out := AfterLoginTarget(next);
    } else {
      out := InvalidPassword;
    }
  }

  /**
   * The POST half of `add_product`: a missing price raises (float(None) is a
   * TypeError, not caught); an unparsable one is refused; otherwise one new
   * product with the given fields, stock 0 and active is added, unless a
   * NOT NULL column (title, description) is missing or the commit fails, in
   * which case the rollback leaves the catalog unchanged.
   */
  method SubmitProduct(catalog: Catalog, title: Option<string>, description: Option<string>,
                       price: PriceInput, image: Option<string>, commitOk: bool) returns (out: Response)
    modifies catalog
    ensures price.NoPrice? ==> out == Crashed
    ensures price.BadPrice? ==> out == InvalidPrice
    ensures out == ProductAdded <==> price.Price? && title.Some? && description.Some? && commitOk
    ensures price.Price? && out != ProductAdded ==> out == AddProductFailed
    ensures out in {Crashed, InvalidPrice, ProductAdded, AddProductFailed}
    ensures out != ProductAdded ==> catalog.rows == old(catalog.rows)
    ensures out == ProductAdded ==>
              && |catalog.rows| == |old(catalog.rows)| + 1
              && catalog.rows[..|old(catalog.rows)|] == old(catalog.rows)
              && var p := catalog.rows[|old(catalog.rows)|];
                 && fresh(p)
                 && p.id == Tables.NextKey(ProductIds(old(catalog.rows)))
                 && p.Info() == ProductInfo(title.value, description.value, price.cents, image, 0, true)
    ensures Tables.DistinctKeys(ProductIds(old(catalog.rows))) ==> Tables.DistinctKeys(ProductIds(catalog.rows))
  {
    if price.NoPrice? {
      return Crashed;
    }
    if price.BadPrice? {
      return InvalidPrice;
    }
    if title.None? || description.None? || !commitOk {
      return AddProductFailed;
    }
    var ids := ProductIds(catalog.rows);
    var product := new Product(Tables.NextKey(ids), title.value, description.value, price.cents, image);
    if Tables.DistinctKeys(ids) {
      Tables.NextKeyKeepsKeysDistinct(ids);
    }
    assert ProductIds(catalog.rows + [product]) == ids + [product.id];
    catalog.rows := catalog.rows + [product];
    out := ProductAdded;
  }

  /**
   * `add_product`: behind `login_required` and `admin_required`; a GET shows
   * the form; a POST is `SubmitProduct`. Only an admin can change the catalog.
   */
  method AddProduct(catalog: Catalog, current: Principal, req: Method, title: Option<string>,
                    description: Option<string>, price: PriceInput, image: Option<string>,
                    commitOk: bool) returns (out: Response)
    modifies catalog
    ensures !current.IsAuthenticated() ==> out == ToLogin
    ensures current.UserPrincipal? ==> out == ToAdminLogin
    ensures current.AdminPrincipal? && req == Get ==> out == AddProductPage
    ensures current.AdminPrincipal? && req == Post && price.NoPrice? ==> out == Crashed
    ensures current.AdminPrincipal? && req == Post && price.BadPrice? ==> out == InvalidPrice
    ensures current.AdminPrincipal? && req == Post && price.Price? && out != ProductAdded ==> out == AddProductFailed
    ensures out == ProductAdded <==>
              current.AdminPrincipal? && req == Post && price.Price? && title.Some? && description.Some? && commitOk
    ensures out != ProductAdded ==> catalog.rows == old(catalog.rows)
    ensures out == ProductAdded ==>
              && |catalog.rows| == |old(catalog.rows)| + 1
              && catalog.rows[..|old(catalog.rows)|] == old(catalog.rows)
              && fresh(catalog.rows[|old(catalog.rows)|])
              && catalog.rows[|old(catalog.rows)|].Info() == ProductInfo(title.value, description.value, price.cents, image, 0, true)
  {
    var gate := LoginRequired(current);
    if gate.Some? {
      return gate.value;
    }
    gate := AdminRequired(current);
    if gate.Some? {
      return gate.value;
    }
    if req == Get {
      return AddProductPage;
    }
    out := SubmitProduct(catalog, title, description, price, image, commitOk);
  }
}

=== FILE: auth_routes.dfy ===
/**
 * User login and registration (app/routes/auth.py): guard chains over the
 * users table keyed by e-mail. `checkPassword(hash, plaintext)` stands for
 * bcrypt's check and `hashed` for the hash bcrypt produces for the new
 * password; `commitOk` says whether the insert commits.
 */
module AuthRoutes {
  import opened Wrappers
  import opened Identity
  import opened UserModel
  import Tables
  import Config

  datatype Response =
    | LoginPage
    | MissingCredentials
    | ToAdminLogin
    | LoggedIn(userId: int)
    | InvalidCredentials
    | RegisterPage
    | MissingFields
    | PasswordMismatch
    | EmailTaken
    | Registered(userId: int)
    | RegistrationFailed

  /**
   * `login`: empty fields are rejected before any lookup; the administrator's
   * address is sent to the admin login; otherwise the login succeeds exactly
   * when a user has that e-mail and the password checks against its hash.
   */
  method Login(users: UserTable, req: Method, email: Option<string>, password: Option<string>,
               checkPassword: (string, string) -> bool) returns (out: Response)
    ensures req == Get ==> out == LoginPage
    ensures req == Post && (Blank(email) || Blank(password)) ==> out == MissingCredentials
    ensures req == Post && !Blank(email) && !Blank(password) && email.value == Config.ADMIN_EMAIL ==> out == ToAdminLogin
    ensures out.LoggedIn? <==>
              && req == Post && !Blank(email) && !Blank(password) && email.value != Config.ADMIN_EMAIL
              && FindByEmail(users.rows, email.value).Some?
              && checkPassword(FindByEmail(users.rows, email.value).value.passwordHash, password.value)
    ensures out.LoggedIn? ==> out.userId == FindByEmail(users.rows, email.value).value.id
    ensures req == Post && !Blank(email) && !Blank(password) && email.value != Config.ADMIN_EMAIL && !out.LoggedIn?
            ==> out == InvalidCredentials
    ensures out in {LoginPage, MissingCredentials, ToAdminLogin, InvalidCredentials} || out.LoggedIn?
  {
    if req == Get {
      return LoginPage;
    }
    if Blank(email) || Blank(password) {
      return MissingCredentials;
    }
    if email.value == Config.ADMIN_EMAIL {
      return ToAdminLogin;
    }
    var user := FindByEmail(users.rows, email.value);
    if user.Some? && checkPassword(user.value.passwordHash, password.value) {
      out := LoggedIn(user.value.id);
    } else {
      out := InvalidCredentials;
    }
  }

  /**
   * `register`: rejected, with the table unchanged, when a field is empty,
   * the confirmation differs, the e-mail is taken, the password is too weak
   * (`set_password` raises) or the commit fails; otherwise exactly one user is
   * added with the given name, e-mail and address and the new hash. E-mail
   * uniqueness and distinct ids are preserved.
   */
  method Register(users: UserTable, req: Method, name: Option<string>, email: Option<string>,
                  password: Option<string>, confirm: Option<string>, address: Option<string>,
                  hashed: string, commitOk: bool) returns (out: Response)
    modifies users
    ensures req == Get ==> out == RegisterPage
    ensures req == Post && (Blank(name) || Blank(email) || Blank(password) || Blank(confirm)) ==> out == MissingFields
    ensures (req == Post && !Blank(name) && !Blank(email) && !Blank(password) && !Blank(confirm)
             && password.value != confirm.value) ==> out == PasswordMismatch
    ensures (req == Post && !Blank(name) && !Blank(email) && !Blank(password) && !Blank(confirm)
             && password.value == confirm.value && FindByEmail(old(users.rows), email.value).Some?) ==> out == EmailTaken
    ensures out.Registered? <==>
              && req == Post && !Blank(name) && !Blank(email) && !Blank(password) && !Blank(confirm)
              && password.value == confirm.value
              && FindByEmail(old(users.rows), email.value).None?
              && ValidatePassword(password.value)
              && commitOk
    ensures (req == Post && !Blank(name) && !Blank(email) && !Blank(password) && !Blank(confirm)
             && password.value == confirm.value && FindByEmail(old(users.rows), email.value).None?
             && (!ValidatePassword(password.value) || !commitOk)) ==> out == RegistrationFailed
    ensures out in {RegisterPage, MissingFields, PasswordMismatch, EmailTaken, RegistrationFailed} || out.Registered?
    ensures !out.Registered? ==> users.rows == old(users.rows)
    ensures out.Registered? ==>
              && |users.rows| == |old(users.rows)| + 1
              && users.rows[..|old(users.rows)|] == old(users.rows)
              && var u := users.rows[|old(users.rows)|];
                 && fresh(u)
                 && u.id == out.userId
                 && u.name == name.value && u.email == email.value && u.address == address
                 && u.passwordHash == hashed && u.billingInfo == None
    ensures UniqueEmails(old(users.rows)) ==> UniqueEmails(users.rows)
    ensures Tables.DistinctKeys(UserIds(old(users.rows))) ==> Tables.DistinctKeys(UserIds(users.rows))
  {
    if req == Get {
      return RegisterPage;
    }
    if Blank(name) || Blank(email) || Blank(password) || Blank(confirm) {
      return MissingFields;
    }
    if password.value != confirm.value {
      return PasswordMismatch;
    }
    if FindByEmail(users.rows, email.value).Some? {
      return EmailTaken;
    }
    var user := new User(Tables.NextKey(UserIds(users.rows)), name.value, email.value, address);
    var strong := user.SetPassword(password.value, hashed);
    if !strong || !commitOk {
      return RegistrationFailed;
    }
    if Tables.DistinctKeys(UserIds(users.rows)) {
      Tables.NextKeyKeepsKeysDistinct(UserIds(users.rows));
    }
    assert UserIds(users.rows + [user]) == UserIds(users.rows) + [user.id];
    users.rows := users.rows + [user];
    out := Registered(user.id);
  }
}

=== FILE: config.dfy ===
/** Configuration constants the core reads (app/config.py). */
module Config {
  /** The single configured administrator e-mail address. */
  const ADMIN_EMAIL: string := "nsai54817@gmail.com"
}

=== FILE: identity.dfy ===
/**
 * Who is making a request and how. flask_login's `current_user` becomes a
 * tagged principal, and the HTTP verb an explicit value.
 */
module Identity {
  import opened Wrappers

  datatype Method = Get | Post

  /** The logged-in identity: nobody, a shop user, or the administrator. */
  datatype Principal = Anonymous | UserPrincipal(userId: int) | AdminPrincipal(adminId: int)
  {
    /** `current_user.is_authenticated` */
    predicate IsAuthenticated() { !Anonymous? }
  }

  /** Form values as Python sees them: `None` when absent, and `not value` when absent or empty. */
  predicate Blank(field: Option<string>) {
    field.None? || field.value == ""
  }
}

=== FILE: legacy_admin.dfy ===
/**
 * The second copy of `admin_required` and `add_product` that lives in
 * app/models/admin.py. Its gate reads `current_user.is_admin`, an attribute
 * that neither `User`, `Admin` nor flask_login's `UserMixin` defines, so for
 * every authenticated caller the read raises. The model keeps that gate as
 * written (`LegacyAdminRequired`) beside the evidently intended one
 * (`IntendedAdminRequired`), and the copied `add_product` uses the latter.
 * The blueprint these views belong to is never registered with the
 * application, so the defect is latent in the assembled shop.
 */
module LegacyAdmin {
  import opened Wrappers
  import opened Identity
  import opened ProductModel
  import opened AdminRoutes

  /**
   * The gate as written: an anonymous caller is aborted with 403, and for an
   * authenticated one the `is_admin` read raises before any decision is made.
   */
  function LegacyAdminRequired(p: Principal): (r: Option<Response>)
    ensures !p.IsAuthenticated() ==> r == Some(Forbidden)
    ensures p.IsAuthenticated() ==> r == Some(Crashed)
  {
    if !p.IsAuthenticated() then Some(Forbidden)
    else Some(Crashed)
  }

  /** Behind `login_required`, the gate as written lets nobody through: not even an administrator. */
  lemma LegacyGateLocksOutAdmins(adminId: int)
    ensures LoginRequired(AdminPrincipal(adminId)).None?
    ensures LegacyAdminRequired(AdminPrincipal(adminId)) == Some(Crashed)
    ensures forall p: Principal :: LoginRequired(p).None? ==> LegacyAdminRequired(p) != None
  {
  }

  /**
   * The gate as intended: the call goes through exactly when the caller is
   * an authenticated administrator; everyone else gets 403.
   */
  function IntendedAdminRequired(p: Principal): (r: Option<Response>)
    ensures r.None? <==> p.IsAuthenticated() && p.AdminPrincipal?
    ensures r.Some? ==> r.value == Forbidden
  {
    if !p.IsAuthenticated() || !p.AdminPrincipal? then Some(Forbidden) else None
  }

  /** Both admin gates admit the same callers; they differ only in how they turn the others away. */
  lemma IntendedGateAgreesWithRouteGate(p: Principal)
    ensures IntendedAdminRequired(p).None? <==> AdminRequired(p).None?
  {
  }

  /**
   * This file's `add_product`, gated by `IntendedAdminRequired`: a GET shows
   * the form, a POST behaves as `SubmitProduct`, and nobody but an
   * administrator changes the catalog.
   */
  method LegacyAddProduct(catalog: Catalog, current: Principal, req: Method, title: Option<string>,
                          description: Option<string>, price: PriceInput, image: Option<string>,
                          commitOk: bool) returns (out: Response)
    modifies catalog
    ensures !current.IsAuthenticated() ==> out == ToLogin
    ensures current.UserPrincipal? ==> out == Forbidden
    ensures current.AdminPrincipal? && req == Get ==> out == AddProductPage
    ensures current.AdminPrincipal? && req == Post && price.NoPrice? ==> out == Crashed
    ensures current.AdminPrincipal? && req == Post && price.BadPrice? ==> out == InvalidPrice
    ensures current.AdminPrincipal? && req == Post && price.Price? && out != ProductAdded ==> out == AddProductFailed
    ensures out == ProductAdded <==>
              current.AdminPrincipal? && req == Post && price.Price? && title.Some? && description.Some? && commitOk
    ensures out != ProductAdded ==> catalog.rows == old(catalog.rows)
    ensures out == ProductAdded ==>
              && |catalog.rows| == |old(catalog.rows)| + 1
              && catalog.rows[..|old(catalog.rows)|] == old(catalog.rows)
              && fresh(catalog.rows[|old(catalog.rows)|])
              && catalog.rows[|old(catalog.rows)|].Info() == ProductInfo(title.value, description.value, price.cents, image, 0, true)
  {
    var gate := LoginRequired(current);
    if gate.Some? {
      return gate.value;
    }
    gate := IntendedAdminRequired(current);
    if gate.Some? {
      return gate.value;
    }
    if req == Get {
      return AddProductPage;
    }
    out := SubmitProduct(catalog, title, description, price, image, commitOk);
  }
}

=== FILE: order_model.dfy ===
/**
 * Order assembly (app/models/order.py): `Order.create_order` totals the cart
 * and snapshots one order item per cart line. Prices are integer cents.
 */
module OrderModel {
  datatype OrderStatus = Pending | Completed

  /** A cart line handed to `create_order`. */
  datatype LineItem = LineItem(productId: int, quantity: int, price: int)

  /** A persisted order line: the price is a snapshot taken when the order was made. */
  datatype OrderItem = OrderItem(productId: int, quantity: int, price: int)

  datatype Order = Order(userId: int, totalPrice: int, status: OrderStatus, items: seq<OrderItem>)

  /** `sum(item.price * item.quantity for item in cart_items)` */
  function LinesTotal(lines: seq<LineItem>): (r: int)
    ensures (forall i :: 0 <= i < |lines| ==> lines[i].price >= 0 && lines[i].quantity >= 0) ==>
              0 <= r && forall i :: 0 <= i < |lines| ==> lines[i].price * lines[i].quantity <= r
    decreases |lines|
  {
    if |lines| == 0 then 0 else lines[0].price * lines[0].quantity + LinesTotal(lines[1..])
  }

  /** The same sum over order items. */
  function ItemsTotal(items: seq<OrderItem>): int
    decreases |items|
  {
    if |items| == 0 then 0 else items[0].price * items[0].quantity + ItemsTotal(items[1..])
  }

  /** The order item `create_order` makes from a cart line. */
  function Snapshot(line: LineItem): OrderItem {
    OrderItem(line.productId, line.quantity, line.price)
  }

  /**
   * `Order.create_order(user, cart_items)`: a Pending order of the user whose
   * total is the sum of price times quantity, with one item per cart line in
   * cart order copying its product, quantity and price.
   */
  method CreateOrder(userId: int, cartItems: seq<LineItem>) returns (order: Order)
    ensures order.userId == userId && order.status == Pending
    ensures order.totalPrice == LinesTotal(cartItems)
    ensures |order.items| == |cartItems|
    ensures forall i :: 0 <= i < |cartItems| ==>
              && order.items[i].productId == cartItems[i].productId
              && order.items[i].quantity == cartItems[i].quantity
              && order.items[i].price == cartItems[i].price
    ensures ItemsTotal(order.items) == order.totalPrice
  {
    var totalPrice := LinesTotal(cartItems);
    var orderItems: seq<OrderItem> := [];
    var i := 0;
    while i < |cartItems|
      invariant 0 <= i <= |cartItems|
      invariant |orderItems| == i
      invariant forall k :: 0 <= k < i ==> orderItems[k] == Snapshot(cartItems[k])
    {
      orderItems := orderItems + [Snapshot(cartItems[i])];
      i := i + 1;
    }
    SnapshotKeepsTotal(cartItems, orderItems);
    order := Order(userId, totalPrice, Pending, orderItems);
  }

  /** The snapshotted items add up to the order's total. */
  lemma {:induction false} SnapshotKeepsTotal(cartItems: seq<LineItem>, items: seq<OrderItem>)
    requires |items| == |cartItems|
    requires forall i :: 0 <= i < |cartItems| ==> items[i] == Snapshot(cartItems[i])
    ensures ItemsTotal(items) == LinesTotal(cartItems)
    decreases |items|
  {
    if |items| > 0 {
      SnapshotKeepsTotal(cartItems[1..], items[1..]);
    }
  }

  /** An empty cart totals 0. */
  lemma EmptyCartTotal()
    ensures LinesTotal([]) == 0
  {
  }

  /** Two lines, (price 10, quantity 2) and (price 5, quantity 1), make an order of total 25 with both lines kept. */
  method TwoLineOrderExample() returns (order: Order)
    ensures order.totalPrice == 25
    ensures |order.items| == 2 && order.items[0].quantity == 2 && order.items[1].quantity == 1
  {
    var lines := [LineItem(1, 2, 10), LineItem(2, 1, 5)];
    assert lines[1..] == [LineItem(2, 1, 5)];
    order := CreateOrder(7, lines);
  }

  /** Every order's items add up to its recorded total. */
  ghost predicate OrdersConsistent(rows: seq<Order>) {
    forall i :: 0 <= i < |rows| ==> ItemsTotal(rows[i].items) == rows[i].totalPrice
  }

  /** The orders table. */
  class OrderTable {
    var rows: seq<Order>

    constructor ()
      ensures rows == []
    {
      rows := [];
    }
  }
}

=== FILE: product_model.dfy ===
/**
 * Catalog products (app/models/product.py): the derived in-stock flag, the
 * guarded stock decrement and the partial-field update. Prices are integer cents.
 */
module ProductModel {
  import opened Wrappers
  import Tables

  /** The fields of a product that `Product.update` may overwrite. */
  datatype ProductInfo = ProductInfo(
    title: string,
    description: string,
    price: int,
    image: Option<string>,
    stock: int,
    isActive: bool)

  /** The arguments of `Product.update`; `None` leaves the field as it is. */
  datatype ProductPatch = ProductPatch(
    title: Option<string>,
    description: Option<string>,
    price: Option<int>,
    image: Option<string>,
    stock: Option<int>,
    isActive: Option<bool>)

  /** `update()` called with no arguments. */
  const NoChange: ProductPatch := ProductPatch(None, None, None, None, None, None)

  /** One `if arg is not None: field = arg` step. */
  function Overwrite<T>(current: T, arg: Option<T>): T {
    if arg.Some? then arg.value else current
  }

  /** The product fields after `update(**patch)`. */
  function ApplyPatch(info: ProductInfo, patch: ProductPatch): ProductInfo {
    ProductInfo(
      Overwrite(info.title, patch.title),
      Overwrite(info.description, patch.description),
      Overwrite(info.price, patch.price),
      if patch.image.Some? then patch.image else info.image,
      Overwrite(info.stock, patch.stock),
      Overwrite(info.isActive, patch.isActive))
  }

  /** A field is overwritten exactly when its argument is given; the others keep their values. */
  lemma PatchOverwritesOnlyGivenFields(info: ProductInfo, patch: ProductPatch)
    ensures var r := ApplyPatch(info, patch);
            && r.title == (if patch.title.Some? then patch.title.value else info.title)
            && r.description == (if patch.description.Some? then patch.description.value else info.description)
            && r.price == (if patch.price.Some? then patch.price.value else info.price)
            && r.image == (if patch.image.Some? then patch.image else info.image)
            && r.stock == (if patch.stock.Some? then patch.stock.value else info.stock)
            && r.isActive == (if patch.isActive.Some? then patch.isActive.value else info.isActive)
  {
  }

  /** An update without arguments changes nothing, and applying one update twice equals applying it once. */
  lemma PatchIdentityAndIdempotence(info: ProductInfo, patch: ProductPatch)
    ensures ApplyPatch(info, NoChange) == info
    ensures ApplyPatch(ApplyPatch(info, patch), patch) == ApplyPatch(info, patch)
  {
  }

  class Product {
    const id: int
    var title: string
    var description: string
    var price: int
    var image: Option<string>
    var stock: int
    var isActive: bool

    /** A new product: stock defaults to 0 and the product is active, so it is not in stock. */
    constructor (id: int, title: string, description: string, price: int, image: Option<string>)
      ensures this.id == id
      ensures Info() == ProductInfo(title, description, price, image, 0, true)
      ensures !IsInStock()
    {
      this.id := id;
      this.title := title;
      this.description := description;
      this.price := price;
      this.image := image;
      stock := 0;
      isActive := true;
    }

    function Info(): ProductInfo
      reads this
    {
      ProductInfo(title, description, price, image, stock, isActive)
    }

    /** `Product.is_in_stock` */
    function IsInStock(): (r: bool)
      reads this
      ensures r <==> stock > 0
    {
      stock > 0
    }

    /**
     * `Product.reduce_stock(quantity)`: more than the stock raises and leaves
     * the stock alone; otherwise the stock drops by `quantity` and is never
     * negative. The product stays in stock exactly when less than the whole
     * stock was taken.
     */
    method ReduceStock(quantity: int) returns (ok: bool)
      modifies this`stock
      ensures ok <==> quantity <= old(stock)
      ensures stock == if ok then old(stock) - quantity else old(stock)
      ensures ok ==> stock >= 0
      ensures ok ==> (IsInStock() <==> quantity < old(stock))
    {
      if quantity > stock {
        return false;
      }
      stock := stock - quantity;
      ok := true;
    }

    /** `Product.update(...)`: overwrites the fields whose argument is given. */
    method Update(patch: ProductPatch)
      modifies this
      ensures Info() == ApplyPatch(old(Info()), patch)
    {
      if patch.title.Some? { title := patch.title.value; }
      if patch.description.Some? { description := patch.description.value; }
      if patch.price.Some? { price := patch.price.value; }
      if patch.image.Some? { image := patch.image; }
      if patch.stock.Some? { stock := patch.stock.value; }
      if patch.isActive.Some? { isActive := patch.isActive.value; }
    }
  }

  /** `Product.query.get(id)`: a first-match lookup by id over `Tables.First`, like `UserModel.FindById`. */
  function FindProduct(rows: seq<Product>, id: int): (r: Option<Product>)
    ensures r.Some? ==> r.value in rows && r.value.id == id
    ensures r.None? <==> forall i :: 0 <= i < |rows| ==> rows[i].id != id
  {
    Tables.First(rows, (p: Product) => p.id == id)
  }

  function ProductIds(rows: seq<Product>): seq<int> {
    seq(|rows|, i requires 0 <= i < |rows| => rows[i].id)
  }

  /** The products table. */
  class Catalog {
    var rows: seq<Product>

    constructor ()
      ensures rows == []
    {
      rows := [];
    }
  }
}

=== FILE: shop_routes.dfy ===
/**
 * The shop pages (app/routes/shop.py): the session cart, the cart page and
 * checkout. The Flask session is a `ShopSession` object whose `userId` and
 * `cart` the views read and update in place; the orders table is an
 * `OrderTable`. The view stores the cart on the order as JSON text; the
 * model stores one quantity-1 order item per cart entry, in cart order,
 * keeping its product id and price. The entry's title is not stored.
 */
module ShopRoutes {
  import opened Wrappers
  import opened Identity
  import opened ProductModel
  import opened OrderModel

  /** One `{id, title, price}` cart entry. */
  datatype CartEntry = CartEntry(productId: int, title: string, price: int)

  datatype Response =
    | LoginRedirect
    | NotFound
    | AddedToCart
    | CartPage(cart: seq<CartEntry>, total: int)
    | EmptyCart
    | OrderPlaced
    | CheckoutPage(cart: seq<CartEntry>, total: int)

  /** `sum(item['price'] for item in cart)` */
  function CartTotal(cart: seq<CartEntry>): (r: int)
    ensures (forall i :: 0 <= i < |cart| ==> cart[i].price >= 0) ==>
              0 <= r && forall i :: 0 <= i < |cart| ==> cart[i].price <= r
    decreases |cart|
  {
    if |cart| == 0 then 0 else cart[0].price + CartTotal(cart[1..])
  }

  /** Appending an entry adds exactly its price to the total. */
  lemma {:induction false} CartTotalAppend(cart: seq<CartEntry>, e: CartEntry)
    ensures CartTotal(cart + [e]) == CartTotal(cart) + e.price
    decreases |cart|
  {
    if |cart| > 0 {
      assert (cart + [e])[1..] == cart[1..] + [e];
      CartTotalAppend(cart[1..], e);
    }
  }

  /** Adding the same product twice counts its price twice: entries are never merged. */
  lemma {:induction false} DuplicateAddsCountTwice(cart: seq<CartEntry>, e: CartEntry)
    ensures |cart + [e] + [e]| == |cart| + 2
    ensures CartTotal(cart + [e] + [e]) == CartTotal(cart) + 2 * e.price
  {
    CartTotalAppend(cart, e);
    CartTotalAppend(cart + [e], e);
  }

  /** The order items checkout stores for a cart: one unit per entry, in cart order. */
  function CartLines(cart: seq<CartEntry>): (r: seq<OrderItem>)
    ensures |r| == |cart|
    ensures forall i :: 0 <= i < |cart| ==> r[i] == OrderItem(cart[i].productId, 1, cart[i].price)
  {
    seq(|cart|, i requires 0 <= i < |cart| => OrderItem(cart[i].productId, 1, cart[i].price))
  }

  /** The stored items add up to the cart total. */
  lemma {:induction false} CartLinesTotal(cart: seq<CartEntry>)
    ensures ItemsTotal(CartLines(cart)) == CartTotal(cart)
    decreases |cart|
  {
    if |cart| > 0 {
      assert CartLines(cart)[1..] == CartLines(cart[1..]);
      CartLinesTotal(cart[1..]);
    }
  }

  /** The Flask session of one visitor. */
  class ShopSession {
    /** `session['user_id']`, absent for a visitor who is not logged in. */
    var userId: Option<int>
    /** `session['cart']`, the empty list when absent. */
    var cart: seq<CartEntry>

    constructor (userId: Option<int>)
      ensures this.userId == userId && cart == []
    {
      this.userId := userId;
      cart := [];
    }

    /**
     * `add_to_cart`: a visitor who is not logged in is sent to log in and the
     * cart is untouched; an unknown product is a 404; otherwise exactly one
     * entry for the product is appended and the earlier entries are kept.
     */
    method AddToCart(catalog: Catalog, productId: int) returns (out: Response)
      modifies this`cart
      ensures userId.None? ==> out == LoginRedirect
      ensures userId.Some? && FindProduct(catalog.rows, productId).None? ==> out == NotFound
      ensures out == AddedToCart <==> userId.Some? && FindProduct(catalog.rows, productId).Some?
      ensures out != AddedToCart ==> cart == old(cart)
      ensures out == AddedToCart ==>
                var p := FindProduct(catalog.rows, productId).value;
                cart == old(cart) + [CartEntry(p.id, p.title, p.price)]
      ensures out == AddedToCart ==> CartTotal(cart) == CartTotal(old(cart)) + cart[|cart| - 1].price
    {
      if userId.None? {
        return LoginRedirect;
      }
      var product := FindProduct(catalog.rows, productId);
      if product.None? {
        return NotFound;
      }
      var p := product.value;
      var entry := CartEntry(p.id, p.title, p.price);
      CartTotalAppend(cart, entry);
      cart := cart + [entry];
      out := AddedToCart;
    }

    /** `cart`: the cart and its total, for a logged-in visitor; nothing changes. */
    method ViewCart() returns (out: Response)
      ensures userId.None? ==> out == LoginRedirect
      ensures userId.Some? ==> out == CartPage(cart, CartTotal(cart))
    {
      if userId.None? {
        return LoginRedirect;
      }
      out := CartPage(cart, CartTotal(cart));
    }

    /**
     * `checkout`: not logged in, or an empty cart, changes nothing. A POST
     * whose commit succeeds appends one Completed order of the user whose
     * total is the cart total, then empties the cart. A failed commit keeps
     * the cart (it is popped only after the commit) and, like a GET, shows
     * the checkout page with the cart and its total.
     */
    method Checkout(orders: OrderTable, req: Method, commitOk: bool) returns (out: Response)
      modifies this`cart, orders
      ensures userId.None? ==> out == LoginRedirect
      ensures userId.Some? && old(cart) == [] ==> out == EmptyCart
      ensures out == OrderPlaced <==> userId.Some? && old(cart) != [] && req == Post && commitOk
      ensures out != OrderPlaced ==> cart == old(cart) && orders.rows == old(orders.rows)
      ensures out == OrderPlaced ==>
                && cart == []
                && orders.rows == old(orders.rows) + [Order(userId.value, CartTotal(old(cart)), Completed, CartLines(old(cart)))]
      ensures userId.Some? && old(cart) != [] && !(req == Post && commitOk) ==>
                out == CheckoutPage(cart, CartTotal(cart))
      ensures OrdersConsistent(old(orders.rows)) ==> OrdersConsistent(orders.rows)
    {
      if userId.None? {
        return LoginRedirect;
      }
      if cart == [] {
        return EmptyCart;
      }
      var total := CartTotal(cart);
      if req == Post && commitOk {
        var order := Order(userId.value, total, Completed, CartLines(cart));
        CartLinesTotal(cart);
        orders.rows := orders.rows + [order];
        cart := [];
        return OrderPlaced;
      }
      out := CheckoutPage(cart, total);
    }
  }
}

=== FILE: strings.dfy ===
/**
 * The few Python string operations the core relies on: `startswith`,
 * `split(sep)`, the slice `s[-4:]`, decimal formatting (`f"{n}"`) and
 * `int(s)`. Strings are sequences of characters.
 */
module Strings {
  import opened Wrappers

  /** Python's `s.startswith(prefix)`. */
  predicate StartsWith(s: string, prefix: string) {
    |prefix| <= |s| && s[..|prefix|] == prefix
  }

  /** Python's `s[-4:]`: the last four characters, or all of them when there are fewer. */
  function LastFour(s: string): (r: string)
    ensures |r| == if |s| < 4 then |s| else 4
    ensures s == s[..|s| - |r|] + r
  {
    if |s| <= 4 then s else s[|s| - 4..]
  }

  // ---------------------------------------------------------------------------
  // split and join

  /** Python's `s.split(sep)` for a one-character separator. */
  function Split(s: string, sep: char): (r: seq<string>)
    ensures |r| >= 1
    ensures forall i :: 0 <= i < |r| ==> sep !in r[i]
    ensures |r| == 1 <==> sep !in s
    decreases |s|
  {
    if |s| == 0 then [""]
    else
      var rest := Split(s[1..], sep);
      if s[0] == sep then [""] + rest
      else [[s[0]] + rest[0]] + rest[1..]
  }

  /** Python's `sep.join(pieces)`. */
  function Join(pieces: seq<string>, sep: char): string
  {
    if |pieces| == 0 then ""
    else if |pieces| == 1 then pieces[0]
    else pieces[0] + [sep] + Join(pieces[1..], sep)
  }

  /** Splitting loses nothing: joining the pieces gives the string back. */
  lemma {:induction false} JoinSplit(s: string, sep: char)
    ensures Join(Split(s, sep), sep) == s
    decreases |s|
  {
    if |s| > 0 {
      var rest := Split(s[1..], sep);
      JoinSplit(s[1..], sep);
      if s[0] == sep {
        assert Split(s, sep) == [""] + rest;
        assert ([""] + rest)[1..] == rest;
        assert s == [sep] + s[1..];
      } else if |rest| == 1 {
        assert Split(s, sep) == [[s[0]] + rest[0]];
        assert s == [s[0]] + s[1..];
      } else {
        var r := Split(s, sep);
        assert r == [[s[0]] + rest[0]] + rest[1..];
        assert r[1..] == rest[1..];
        assert s == [s[0]] + s[1..];
      }
    }
  }

  /** A string without the separator is one piece. */
  lemma {:induction false} SplitWithoutSeparator(s: string, sep: char)
    requires sep !in s
    ensures Split(s, sep) == [s]
    decreases |s|
  {
    if |s| > 0 {
      SplitWithoutSeparator(s[1..], sep);
      assert [s[0]] + s[1..] == s;
    }
  }

  /** The text before the first separator is the first piece; the rest is split on. */
  lemma {:induction false} SplitAtFirst(p: string, q: string, sep: char)
    requires sep !in p
    ensures Split(p + [sep] + q, sep) == [p] + Split(q, sep)
    decreases |p|
  {
    var s := p + [sep] + q;
    if |p| == 0 {
      assert s[1..] == q;
    } else {
      assert s[1..] == p[1..] + [sep] + q;
      SplitAtFirst(p[1..], q, sep);
      assert [p[0]] + p[1..] == p;
    }
  }

  /** Pieces without the separator are recovered exactly by splitting their join. */
  lemma {:induction false} SplitJoin(pieces: seq<string>, sep: char)
    requires |pieces| >= 1
    requires forall i :: 0 <= i < |pieces| ==> sep !in pieces[i]
    ensures Split(Join(pieces, sep), sep) == pieces
    decreases |pieces|
  {
    if |pieces| == 1 {
      SplitWithoutSeparator(pieces[0], sep);
    } else {
      SplitJoin(pieces[1..], sep);
      SplitAtFirst(pieces[0], Join(pieces[1..], sep), sep);
      assert [pieces[0]] + pieces[1..] == pieces;
    }
  }

  /**
   * A string with the separator begins with its first piece, the separator
   * and its second piece, and that second piece runs up to the next separator
   * or to the end of the string.
   */
  lemma SplitFirstTwo(s: string, sep: char)
    requires sep in s
    ensures var r := Split(s, sep); |r| >= 2 && StartsWith(s, r[0] + [sep] + r[1])
    ensures var r := Split(s, sep); var n := |r[0]| + 1 + |r[1]|;
            n <= |s| && (n == |s| || s[n] == sep)
  {
    var r := Split(s, sep);
    JoinSplit(s, sep);
    var tail := Join(r[1..], sep);
    assert s == r[0] + [sep] + tail;
    if |r| > 2 {
      assert tail == r[1] + [sep] + Join(r[2..], sep);
      assert tail[|r[1]|] == sep;
    } else {
      assert tail == r[1];
    }
    assert StartsWith(tail, r[1]);
    assert (r[0] + [sep] + tail)[..|r[0]| + 1 + |r[1]|] == r[0] + [sep] + tail[..|r[1]|];
  }

  // ---------------------------------------------------------------------------
  // decimal numerals

  predicate IsDigit(c: char) { '0' <= c <= '9' }

  predicate AllDigits(s: string) { forall i :: 0 <= i < |s| ==> IsDigit(s[i]) }

  function DigitChar(d: nat): char
    requires d < 10
  {
    (('0' as int) + d) as char
  }

  /** The decimal numeral of a natural number, most significant digit first. */
  function NatToString(n: nat): (r: string)
    ensures |r| >= 1 && AllDigits(r)
    decreases n
  {
    if n < 10 then [DigitChar(n)] else NatToString(n / 10) + [DigitChar(n % 10)]
  }

  /** The value of a string of decimal digits. */
  function DigitsValue(s: string): nat
    requires AllDigits(s)
    decreases |s|
  {
    if |s| == 0 then 0
    else DigitsValue(s[..|s| - 1]) * 10 + ((s[|s| - 1] as int) - ('0' as int))
  }

  /** Python's `f"{n}"` / `str(n)` for an integer. */
  function IntToString(n: int): (r: string)
    ensures |r| >= 1
    ensures r[0] == '-' <==> n < 0
    ensures AllDigits(if n < 0 then r[1..] else r) && |if n < 0 then r[1..] else r| >= 1
  {
    if n < 0 then "-" + NatToString(-n) else NatToString(n)
  }

  /**
   * Python's `int(s)`: an optional sign followed by one or more decimal
   * digits; anything else raises, which is `None` here.
   */
  function ParseInt(s: string): (r: Option<int>)
    ensures |s| >= 1 && AllDigits(s) ==> r == Some(DigitsValue(s))
    ensures r.Some? ==> |s| >= 1 && IsDigit(s[|s| - 1])
    ensures r.Some? && r.value < 0 ==> s[0] == '-'
    ensures |s| >= 1 && s[0] != '-' && s[0] != '+' && !IsDigit(s[0]) ==> r.None?
  {
    if |s| >= 2 && s[0] == '-' && AllDigits(s[1..]) then Some(0 - DigitsValue(s[1..]))
    else if |s| >= 2 && s[0] == '+' && AllDigits(s[1..]) then Some(DigitsValue(s[1..]))
    else if |s| >= 1 && AllDigits(s) then Some(DigitsValue(s))
    else None
  }

  lemma {:induction false} DigitsValueOfNatToString(n: nat)
    ensures DigitsValue(NatToString(n)) == n
    decreases n
  {
    if n >= 10 {
      var s := NatToString(n);
      DigitsValueOfNatToString(n / 10);
      assert s[..|s| - 1] == NatToString(n / 10);
    }
  }

  /** Formatting an integer and parsing it back gives the same integer. */
  lemma ParseIntOfIntToString(n: int)
    ensures ParseInt(IntToString(n)) == Some(n)
  {
    if n < 0 {
      ParseIntOfNegative(-n);
    } else {
      DigitsValueOfNatToString(n);
    }
  }

  lemma ParseIntOfNegative(m: nat)
    requires m > 0
    ensures ParseInt("-" + NatToString(m)) == Some(0 - m)
  {
    var d := NatToString(m);
    var s := "-" + d;
    assert s[1..] == d;
    DigitsValueOfNatToString(m);
  }

  /** Formatted integers never contain an underscore or a slash. */
  lemma IntToStringHasNoSeparator(n: int, sep: char)
    requires sep == '_' || sep == '/'
    ensures sep !in IntToString(n)
  {
    var s := IntToString(n);
    if n < 0 {
      assert s == "-" + NatToString(-n);
      assert forall i :: 1 <= i < |s| ==> s[i] == NatToString(-n)[i - 1];
    }
  }
}

=== FILE: subscription_model.dfy ===
/**
 * The subscription records and the model-layer lifecycle rule
 * (app/models/subscription.py): `create_subscription` cancels every Active
 * subscription of the user and builds a new Active one; `is_active` decides,
 * lazily, whether a subscription is in force at a given time.
 */
module SubscriptionModel {
  import opened Wrappers

  /** Times are whole seconds; a `timedelta(days=d)` is `d * SECONDS_PER_DAY`. */
  const SECONDS_PER_DAY: int := 86400

  datatype Status = Active | Inactive | Cancelled

  /**
   * What a row records as its plan. The model layer stores the plan's id;
   * the subscribe route stores the plan name posted by the form.
   */
  datatype PlanRef = PlanId(id: int) | PlanName(name: string)

  datatype Plan = Plan(id: int, name: string, price: int, durationMonths: int)

  datatype Subscription = Subscription(
    userId: int,
    plan: PlanRef,
    status: Status,
    startDate: int,
    endDate: Option<int>)

  /** `Subscription.is_active`: Active and not yet past its end date (an open end never expires). */
  function IsActive(s: Subscription, now: int): (r: bool)
    ensures r ==> s.status == Active
    ensures s.status == Active && s.endDate.None? ==> r
    ensures s.status == Active && s.endDate.Some? && now < s.endDate.value ==> r
    ensures s.endDate.Some? && s.endDate.value <= now ==> !r
  {
    s.status == Active && (s.endDate.None? || s.endDate.value > now)
  }

  /** Expiry is permanent: a subscription not in force at some time is not in force later either. */
  lemma ExpiryIsPermanent(s: Subscription, t: int, later: int)
    requires t <= later
    requires !IsActive(s, t)
    ensures !IsActive(s, later)
  {
  }

  // ---------------------------------------------------------------------------
  // counting Active rows

  /** A row of this user whose stored status is Active. */
  predicate ActiveOf(s: Subscription, userId: int) {
    s.userId == userId && s.status == Active
  }

  /** Number of rows of the user whose stored status is Active. */
  function ActiveCount(rows: seq<Subscription>, userId: int): nat
    decreases |rows|
  {
    if |rows| == 0 then 0
    else ActiveCount(rows[..|rows| - 1], userId) + (if ActiveOf(rows[|rows| - 1], userId) then 1 else 0)
  }

  /** The one-Active-subscription-per-user invariant. */
  ghost predicate AtMostOneActive(rows: seq<Subscription>) {
    forall u :: ActiveCount(rows, u) <= 1
  }

  lemma ActiveCountAppend(rows: seq<Subscription>, s: Subscription, userId: int)
    ensures ActiveCount(rows + [s], userId) == ActiveCount(rows, userId) + (if ActiveOf(s, userId) then 1 else 0)
  {
    assert (rows + [s])[..|rows|] == rows;
  }

  /** The count is zero exactly when no row of the user is Active. */
  lemma {:induction false} ActiveCountZero(rows: seq<Subscription>, userId: int)
    ensures ActiveCount(rows, userId) == 0 <==> forall i :: 0 <= i < |rows| ==> !ActiveOf(rows[i], userId)
    decreases |rows|
  {
    if |rows| > 0 {
      var init := rows[..|rows| - 1];
      ActiveCountZero(init, userId);
      assert forall i :: 0 <= i < |init| ==> init[i] == rows[i];
    }
  }

  // ---------------------------------------------------------------------------
  // retiring a user's Active rows

  /**
   * `after` is `before` with every Active row of the user moved to another
   * status (and possibly another end date), all other rows untouched.
   */
  predicate RetiresActive(before: seq<Subscription>, after: seq<Subscription>, userId: int) {
    && |after| == |before|
    && forall i :: 0 <= i < |before| ==>
         if ActiveOf(before[i], userId) then after[i].userId == userId && after[i].status != Active
         else after[i] == before[i]
  }

  /** After retiring, the user has no Active row and every other user keeps theirs. */
  lemma {:induction false} ActiveCountAfterRetire(before: seq<Subscription>, after: seq<Subscription>, userId: int, other: int)
    requires RetiresActive(before, after, userId)
    ensures ActiveCount(after, other) == if other == userId then 0 else ActiveCount(before, other)
    decreases |before|
  {
    if |before| > 0 {
      var n := |before| - 1;
      assert RetiresActive(before[..n], after[..n], userId);
      ActiveCountAfterRetire(before[..n], after[..n], userId, other);
    }
  }

  /**
   * Inserting an Active subscription of the user after retiring the user's
   * Active rows leaves exactly one Active row for that user, the new one, and
   * keeps the per-user invariant.
   */
  lemma InsertAfterRetireLeavesOneActive(before: seq<Subscription>, after: seq<Subscription>, sub: Subscription)
    requires sub.status == Active
    requires RetiresActive(before, after, sub.userId)
    ensures ActiveCount(after + [sub], sub.userId) == 1
    ensures forall i :: 0 <= i < |after| ==> !ActiveOf(after[i], sub.userId)
    ensures AtMostOneActive(before) ==> AtMostOneActive(after + [sub])
  {
    ActiveCountAfterRetire(before, after, sub.userId, sub.userId);
    ActiveCountZero(after, sub.userId);
    ActiveCountAppend(after, sub, sub.userId);
    if AtMostOneActive(before) {
      forall u
        ensures ActiveCount(after + [sub], u) <= 1
      {
        ActiveCountAfterRetire(before, after, sub.userId, u);
        ActiveCountAppend(after, sub, u);
      }
    }
  }

  /** Moving one Active row to another status lowers its user's count by one and no other count. */
  lemma {:induction false} ActiveCountRetireOne(rows: seq<Subscription>, i: nat, s: Subscription, other: int)
    requires i < |rows| && rows[i].status == Active
    requires s.userId == rows[i].userId && s.status != Active
    ensures ActiveCount(rows[i := s], other) == ActiveCount(rows, other) - (if other == s.userId then 1 else 0)
    decreases |rows|
  {
    var n := |rows| - 1;
    if i < n {
      assert rows[i := s][..n] == rows[..n][i := s];
      ActiveCountRetireOne(rows[..n], i, s, other);
    } else {
      assert rows[i := s][..n] == rows[..n];
    }
  }

  // ---------------------------------------------------------------------------
  // create_subscription

  /** How `create_subscription` leaves one row: an Active row of the user becomes Cancelled. */
  function CancelIfActive(s: Subscription, userId: int): Subscription {
    if ActiveOf(s, userId) then s.(status := Cancelled) else s
  }

  /** The table after `create_subscription` cancelled the user's Active rows. */
  function CancelActive(rows: seq<Subscription>, userId: int): (r: seq<Subscription>)
    ensures RetiresActive(rows, r, userId)
    ensures forall i :: 0 <= i < |rows| && ActiveOf(rows[i], userId) ==> r[i] == rows[i].(status := Cancelled)
  {
    seq(|rows|, i requires 0 <= i < |rows| => CancelIfActive(rows[i], userId))
  }

  /**
   * Two `create_subscription` calls in a row, each result inserted: the first
   * new subscription ends up Cancelled and the second is the user's only Active row.
   */
  lemma CreateTwice(rows: seq<Subscription>, first: Subscription, second: Subscription)
    requires first.status == Active && second.status == Active
    requires first.userId == second.userId
    ensures var once := CancelActive(rows, first.userId) + [first];
            var twice := CancelActive(once, first.userId) + [second];
            && twice[|rows|] == first.(status := Cancelled)
            && twice[|rows| + 1] == second
            && ActiveCount(twice, first.userId) == 1
            && forall i :: 0 <= i < |twice| && ActiveOf(twice[i], first.userId) ==> i == |rows| + 1
  {
    var u := first.userId;
    var once := CancelActive(rows, u) + [first];
    InsertAfterRetireLeavesOneActive(once, CancelActive(once, u), second);
    assert ActiveOf(once[|rows|], u);
  }

  /** The subscriptions table; its rows are updated in place and appended to. */
  class SubscriptionTable {
    var rows: seq<Subscription>

    constructor ()
      ensures rows == []
    {
      rows := [];
    }

    /**
     * `Subscription.create_subscription(user, plan)`: cancels every Active row
     * of the user and returns, not yet inserted, a new Active subscription that
     * ends `30 * plan.duration_months` days from now.
     */
    method CreateSubscription(userId: int, plan: Plan, now: int) returns (sub: Subscription)
      modifies this
      ensures rows == CancelActive(old(rows), userId)
      ensures sub.userId == userId && sub.plan == PlanId(plan.id) && sub.status == Active
      ensures sub.startDate == now
      ensures sub.endDate == Some(now + plan.durationMonths * 30 * SECONDS_PER_DAY)
    {
      var i := 0;
      while i < |rows|
        invariant 0 <= i <= |rows| == |old(rows)|
        invariant forall k :: 0 <= k < i ==> rows[k] == CancelIfActive(old(rows)[k], userId)
        invariant forall k :: i <= k < |rows| ==> rows[k] == old(rows)[k]
      {
        if rows[i].userId == userId && rows[i].status == Active {
          rows := rows[i := rows[i].(status := Cancelled)];
        }
        i := i + 1;
      }
      var endDate := now + plan.durationMonths * 30 * SECONDS_PER_DAY;
      sub := Subscription(userId, PlanId(plan.id), Active, now, Some(endDate));
    }

    /** `db.session.add(sub)` followed by a commit. */
    method Insert(sub: Subscription)
      modifies this
      ensures rows == old(rows) + [sub]
    {
      rows := rows + [sub];
    }

    /**
     * `create_subscription` followed by persisting its result: the user's old
     * Active rows are Cancelled, the new row is appended and is the user's only
     * Active row, and at most one Active row per user is preserved.
     */
    method CreateAndPersist(userId: int, plan: Plan, now: int) returns (sub: Subscription)
      modifies this
      ensures rows == CancelActive(old(rows), userId) + [sub]
      ensures sub.userId == userId && sub.plan == PlanId(plan.id) && sub.status == Active
      ensures ActiveCount(rows, userId) == 1
      ensures forall i :: 0 <= i < |rows| - 1 ==> !ActiveOf(rows[i], userId)
      ensures AtMostOneActive(old(rows)) ==> AtMostOneActive(rows)
    {
      var before := rows;
      sub := CreateSubscription(userId, plan, now);
      InsertAfterRetireLeavesOneActive(before, rows, sub);
      Insert(sub);
    }
  }
}

=== FILE: subscription_routes.dfy ===
/**
 * The subscription pages (app/routes/subscription.py). The route layer keeps
 * its own copy of the one-Active-subscription rule: a subscribe flips the
 * user's Active rows to Inactive with an end date of now and adds a fixed
 * 30-day subscription; a cancel retires only the first Active row. All
 * writes of a request commit together or are rolled back together.
 *
 * `sessionUser` is `session.get('user_id')`; `commitOk` says whether the
 * transaction's writes succeed (a failure rolls them all back).
 */
module SubscriptionRoutes {
  import opened Wrappers
  import opened Strings
  import opened Identity
  import opened SubscriptionModel
  import opened UserModel

  /** Length of a subscription started from the plans page. */
  const ROUTE_TERM_DAYS: int := 30

  datatype Response =
    | LoginRedirect
    | PlansPage
    | InvalidPlan
    | Subscribed
    | SubscribeFailed
    | DashboardPage(subscriptions: seq<Subscription>, active: Option<Subscription>)
    | MissingPaymentFields
    | PaymentUpdated
    | PaymentFailed
    | SubscriptionCancelled
    | NothingToCancel
    | CancelFailed

  // ---------------------------------------------------------------------------
  // subscribe

  /** How the bulk update of `subscribe` leaves one row. */
  function Deactivate(s: Subscription, userId: int, now: int): Subscription {
    if ActiveOf(s, userId) then s.(status := Inactive, endDate := Some(now)) else s
  }

  /** The table after `subscribe`'s bulk update of the user's Active rows. */
  function DeactivateActive(rows: seq<Subscription>, userId: int, now: int): (r: seq<Subscription>)
    ensures RetiresActive(rows, r, userId)
    ensures forall i :: 0 <= i < |rows| && ActiveOf(rows[i], userId) ==>
              r[i] == rows[i].(status := Inactive, endDate := Some(now))
  {
    seq(|rows|, i requires 0 <= i < |rows| => Deactivate(rows[i], userId, now))
  }

  /** The row a successful subscribe adds. */
  function RouteSubscription(userId: int, plan: string, now: int): Subscription {
    Subscription(userId, PlanName(plan), Active, now, Some(now + ROUTE_TERM_DAYS * SECONDS_PER_DAY))
  }

  /**
   * The two copies of the rule retire the same rows but differently: the model
   * layer marks them Cancelled and keeps their end date, the route marks them
   * Inactive and ends them now.
   */
  lemma LayersRetireDifferently(rows: seq<Subscription>, userId: int, now: int, i: nat)
    requires i < |rows| && ActiveOf(rows[i], userId)
    ensures CancelActive(rows, userId)[i].status == Cancelled
    ensures CancelActive(rows, userId)[i].endDate == rows[i].endDate
    ensures DeactivateActive(rows, userId, now)[i].status == Inactive
    ensures DeactivateActive(rows, userId, now)[i].endDate == Some(now)
  {
  }

  /**
   * `subscribe`: without a logged-in user or with no plan chosen nothing
   * changes; otherwise the user's Active rows become Inactive ending now and a
   * 30-day Active subscription to the chosen plan is added, or, if the
   * transaction fails, nothing changes at all.
   */
  method Subscribe(table: SubscriptionTable, sessionUser: Option<int>, req: Method, plan: Option<string>,
                   now: int, commitOk: bool) returns (out: Response)
    modifies table
    ensures sessionUser.None? ==> out == LoginRedirect
    ensures sessionUser.Some? && req == Get ==> out == PlansPage
    ensures sessionUser.Some? && req == Post && Blank(plan) ==> out == InvalidPlan
    ensures sessionUser.Some? && req == Post && !Blank(plan) ==> out == if commitOk then Subscribed else SubscribeFailed
    ensures out == Subscribed ==>
              table.rows == DeactivateActive(old(table.rows), sessionUser.value, now)
                            + [RouteSubscription(sessionUser.value, plan.value, now)]
    ensures out != Subscribed ==> table.rows == old(table.rows)
    ensures out == Subscribed ==> ActiveSubscription(table.rows, sessionUser.value)
                                  == Some(RouteSubscription(sessionUser.value, plan.value, now))
    ensures AtMostOneActive(old(table.rows)) ==> AtMostOneActive(table.rows)
  {
    if sessionUser.None? {
      return LoginRedirect;
    }
    if req == Get {
      return PlansPage;
    }
    if Blank(plan) {
      return InvalidPlan;
    }
    var userId := sessionUser.value;
    var before := table.rows;
    table.rows := DeactivateActive(table.rows, userId, now);
    if commitOk {
      var sub := RouteSubscription(userId, plan.value, now);
      InsertAfterRetireLeavesOneActive(before, table.rows, sub);
      ActiveSubscriptionAfterInsert(before, table.rows, sub);
      table.rows := table.rows + [sub];
      out := Subscribed;
    } else {
      table.rows := before;
      out := SubscribeFailed;
    }
  }

  // ---------------------------------------------------------------------------
  // cancel_subscription

  /**
   * `cancel_subscription`: the user's first Active row becomes Cancelled
   * ending now; with no Active row nothing changes and a warning is shown;
   * a failed commit changes nothing.
   */
  method CancelSubscription(table: SubscriptionTable, sessionUser: Option<int>, now: int, commitOk: bool)
    returns (out: Response)
    modifies table
    ensures sessionUser.None? ==> out == LoginRedirect
    ensures sessionUser.Some? && FirstActiveIndex(old(table.rows), sessionUser.value).None? ==> out == NothingToCancel
    ensures sessionUser.Some? && FirstActiveIndex(old(table.rows), sessionUser.value).Some? ==>
              out == if commitOk then SubscriptionCancelled else CancelFailed
    ensures out == SubscriptionCancelled ==>
              var i := FirstActiveIndex(old(table.rows), sessionUser.value).value;
              table.rows == old(table.rows)[i := old(table.rows)[i].(status := Cancelled, endDate := Some(now))]
    ensures out == SubscriptionCancelled ==>
              ActiveCount(table.rows, sessionUser.value) == ActiveCount(old(table.rows), sessionUser.value) - 1
    ensures out != SubscriptionCancelled ==> table.rows == old(table.rows)
    ensures AtMostOneActive(old(table.rows)) ==> AtMostOneActive(table.rows)
  {
    if sessionUser.None? {
      return LoginRedirect;
    }
    var userId := sessionUser.value;
    var found := FirstActiveIndex(table.rows, userId);
    if found.None? {
      return NothingToCancel;
    }
    if !commitOk {
      return CancelFailed;
    }
    var i := found.value;
    var before := table.rows;
    var cancelled := before[i].(status := Cancelled, endDate := Some(now));
    var after := before[i := cancelled];
    ActiveCountRetireOne(before, i, cancelled, userId);
    if AtMostOneActive(before) {
      forall u
        ensures ActiveCount(after, u) <= 1
      {
        ActiveCountRetireOne(before, i, cancelled, u);
      }
    }
    table.rows := after;
    out := SubscriptionCancelled;
  }

  // ---------------------------------------------------------------------------
  // dashboard

  /** The user's rows, in table order (`filter_by(user_id=...)`). */
  function OfUser(rows: seq<Subscription>, userId: int): (r: seq<Subscription>)
    ensures forall s :: s in r <==> s in rows && s.userId == userId
    ensures forall s :: multiset(r)[s] == (if s.userId == userId then multiset(rows)[s] else 0)
    ensures |r| <= |rows|
    decreases |rows|
  {
    if |rows| == 0 then []
    else
      assert rows == [rows[0]] + rows[1..];
      if rows[0].userId == userId then [rows[0]] + OfUser(rows[1..], userId)
      else OfUser(rows[1..], userId)
  }

  /** Latest start first. */
  ghost predicate SortedByStartDesc(s: seq<Subscription>) {
    forall i, j :: 0 <= i < j < |s| ==> s[i].startDate >= s[j].startDate
  }

  function InsertByStart(x: Subscription, s: seq<Subscription>): (r: seq<Subscription>)
    requires SortedByStartDesc(s)
    ensures SortedByStartDesc(r)
    ensures multiset(r) == multiset(s) + multiset{x}
    ensures forall k :: 0 <= k < |r| ==> r[k] == x || r[k] in s
    decreases |s|
  {
    if |s| == 0 then [x]
    else if x.startDate >= s[0].startDate then [x] + s
    else
      var t := InsertByStart(x, s[1..]);
      assert s == [s[0]] + s[1..];
      assert forall k :: 0 <= k < |t| ==> s[0].startDate >= t[k].startDate;
      [s[0]] + t
  }

  /** `order_by(Subscription.start_date.desc())`: the same rows, latest start first. */
  function SortByStartDesc(s: seq<Subscription>): (r: seq<Subscription>)
    ensures SortedByStartDesc(r)
    ensures multiset(r) == multiset(s)
    decreases |s|
  {
    if |s| == 0 then []
    else
      assert s == [s[0]] + s[1..];
      InsertByStart(s[0], SortByStartDesc(s[1..]))
  }

  /**
   * `dashboard`: the user's subscriptions, latest start first, and the first
   * Active one in table order.
   */
  method Dashboard(table: SubscriptionTable, sessionUser: Option<int>) returns (out: Response)
    ensures sessionUser.None? ==> out == LoginRedirect
    ensures sessionUser.Some? ==> out.DashboardPage?
    ensures out.DashboardPage? ==>
              && SortedByStartDesc(out.subscriptions)
              && multiset(out.subscriptions) == multiset(OfUser(table.rows, sessionUser.value))
              && (forall s :: multiset(out.subscriptions)[s] ==
                    (if s.userId == sessionUser.value then multiset(table.rows)[s] else 0))
              && out.active == ActiveSubscription(table.rows, sessionUser.value)
  {
    if sessionUser.None? {
      return LoginRedirect;
    }
    var userId := sessionUser.value;
    out := DashboardPage(SortByStartDesc(OfUser(table.rows, userId)), ActiveSubscription(table.rows, userId));
  }

  // ---------------------------------------------------------------------------
  // update_payment

  /**
   * The billing details `update_payment` derives from the form: the card's
   * last (up to) four characters and the first two `/`-separated pieces of the
   * expiry; `None` when the expiry has no `/` (the `[1]` index raises).
   */
  function ParseBilling(cardNumber: string, expiry: string): (r: Option<BillingInfo>)
    ensures r.Some? <==> '/' in expiry
    ensures r.Some? ==> r.value.last4 == LastFour(cardNumber)
    ensures r.Some? ==> '/' !in r.value.expMonth && '/' !in r.value.expYear
    ensures r.Some? ==> StartsWith(expiry, r.value.expMonth + "/" + r.value.expYear)
    ensures r.Some? ==> var n := |r.value.expMonth| + 1 + |r.value.expYear|;
                        n <= |expiry| && (n == |expiry| || expiry[n] == '/')
  {
    var pieces := Split(expiry, '/');
    if |pieces| < 2 then None
    else
      SplitFirstTwo(expiry, '/');
      Some(BillingInfo(LastFour(cardNumber), pieces[0], pieces[1]))
  }

  lemma ParseBillingExample()
    ensures ParseBilling("4111111111111234", "12/27") == Some(BillingInfo("1234", "12", "27"))
    ensures ParseBilling("4111111111111234", "1227") == None
  {
    assert "12/27"[2] == '/';
    SplitAtFirst("12", "27", '/');
    assert "12/27" == "12" + ['/'] + "27";
    SplitWithoutSeparator("27", '/');
    SplitWithoutSeparator("1227", '/');
  }

  /**
   * `update_payment`: a missing field is rejected; otherwise the logged-in
   * user's billing details are replaced by `ParseBilling`'s, unless the user
   * is unknown, the expiry has no `/` or the commit fails, in which case the
   * rollback leaves every user as it was.
   */
  method UpdatePayment(users: UserTable, sessionUser: Option<int>, cardNumber: Option<string>,
                       expiry: Option<string>, cvv: Option<string>, commitOk: bool) returns (out: Response)
    modifies users.rows
    ensures sessionUser.None? ==> out == LoginRedirect
    ensures sessionUser.Some? && (Blank(cardNumber) || Blank(expiry) || Blank(cvv)) ==> out == MissingPaymentFields
    ensures out == PaymentUpdated <==>
              && sessionUser.Some? && !Blank(cardNumber) && !Blank(expiry) && !Blank(cvv)
              && FindById(users.rows, sessionUser.value).Some?
              && ParseBilling(cardNumber.value, expiry.value).Some?
              && commitOk
    ensures out == PaymentUpdated ==>
              FindById(users.rows, sessionUser.value).value.billingInfo == ParseBilling(cardNumber.value, expiry.value)
    ensures forall u :: u in users.rows && (out != PaymentUpdated || u != FindById(users.rows, sessionUser.value).value) ==>
              u.billingInfo == old(u.billingInfo)
    ensures forall u :: u in users.rows ==> u.passwordHash == old(u.passwordHash)
    ensures sessionUser.Some? && !Blank(cardNumber) && !Blank(expiry) && !Blank(cvv) && out != PaymentUpdated
            ==> out == PaymentFailed
    ensures out in {LoginRedirect, MissingPaymentFields, PaymentUpdated, PaymentFailed}
  {
    if sessionUser.None? {
      return LoginRedirect;
    }
    var user := FindById(users.rows, sessionUser.value);
    if Blank(cardNumber) || Blank(expiry) || Blank(cvv) {
      return MissingPaymentFields;
    }
    if user.None? {
      return PaymentFailed;
    }
    var info := ParseBilling(cardNumber.value, expiry.value);
    if info.None? || !commitOk {
      return PaymentFailed;
    }
    user.value.billingInfo := info;
    out := PaymentUpdated;
  }
}

=== FILE: tables.dfy ===
/**
 * The two things the core asks of its database tables: `filter_by(...).first()`
 * (the first row in table order that matches) and the primary key a new row
 * receives (one more than the largest key so far, 1 for an empty table).
 */
module Tables {
  import opened Wrappers

  /** Index of the first element satisfying `p`, if any. */
  function FirstIndex<T>(s: seq<T>, p: T -> bool): (r: Option<nat>)
    ensures r.Some? ==> r.value < |s| && p(s[r.value])
    ensures r.Some? ==> forall j :: 0 <= j < r.value ==> !p(s[j])
    ensures r.None? <==> forall j :: 0 <= j < |s| ==> !p(s[j])
    decreases |s|
  {
    if |s| == 0 then None
    else if p(s[0]) then Some(0)
    else match FirstIndex(s[1..], p)
      case None => None
      case Some(i) => Some(i + 1)
  }

  /** The first element satisfying `p`, if any (`query.filter_by(...).first()`). */
  function First<T>(s: seq<T>, p: T -> bool): (r: Option<T>)
    ensures r.Some? ==> r.value in s && p(r.value)
    ensures r.None? <==> forall j :: 0 <= j < |s| ==> !p(s[j])
  {
    match FirstIndex(s, p)
    case None => None
    case Some(i) => Some(s[i])
  }

  /** The largest key, or 0 for no keys. */
  function MaxKey(keys: seq<int>): (m: int)
    ensures m >= 0
    ensures forall i :: 0 <= i < |keys| ==> keys[i] <= m
    decreases |keys|
  {
    if |keys| == 0 then 0
    else
      var rest := MaxKey(keys[1..]);
      if keys[0] > rest then keys[0] else rest
  }

  /** The key an integer primary key column assigns to the next inserted row. */
  function NextKey(keys: seq<int>): (k: int)
    ensures k >= 1
    ensures forall i :: 0 <= i < |keys| ==> keys[i] < k
  {
    MaxKey(keys) + 1
  }

  /** No key occurs twice. */
  predicate DistinctKeys(keys: seq<int>) {
    forall i, j :: 0 <= i < j < |keys| ==> keys[i] != keys[j]
  }

  /** Appending the next key keeps the keys distinct. */
  lemma NextKeyKeepsKeysDistinct(keys: seq<int>)
    requires DistinctKeys(keys)
    ensures DistinctKeys(keys + [NextKey(keys)])
  {
  }
}

=== FILE: user_loader.dfy ===
/**
 * flask_login's `user_loader` (app/__init__.py): the session stores an id
 * string; one that starts with `admin_` names an `Admin` by the integer
 * after the first underscore, any other names a `User` by its integer
 * value. `int()` failing raises, which is `BadId` here.
 */
module UserLoader {
  import opened Wrappers
  import opened Strings
  import opened UserModel
  import opened AdminModel

  datatype Loaded =
    | AdminLoaded(admin: Option<Admin>)
    | UserLoaded(user: Option<User>)
    | BadId

  /** An admin id string always has a first underscore, so `split('_')` has a second piece. */
  lemma PrefixedIdHasSecondPiece(userId: string)
    requires StartsWith(userId, ADMIN_ID_PREFIX)
    ensures |Split(userId, '_')| >= 2
  {
    assert userId[5] == ADMIN_ID_PREFIX[5] == '_';
  }

  /** The text `load_user` hands to `int()`: the second `_`-piece of an admin id, else the whole id. */
  function IdText(userId: string): string
  {
    if StartsWith(userId, ADMIN_ID_PREFIX) then
      PrefixedIdHasSecondPiece(userId);
      Split(userId, '_')[1]
    else userId
  }

  /**
   * `load_user(user_id)`: the id names an admin exactly when it starts with
   * `admin_`, a user otherwise; it is refused exactly when its numeric part
   * does not parse; any row returned has the parsed id and is in its table,
   * and none is returned only when no row has that id.
   */
  function LoadUser(users: seq<User>, admins: seq<Admin>, userId: string): (r: Loaded)
    ensures r.BadId? <==> ParseInt(IdText(userId)).None?
    ensures r.AdminLoaded? <==> StartsWith(userId, ADMIN_ID_PREFIX) && ParseInt(IdText(userId)).Some?
    ensures r.UserLoaded? <==> !StartsWith(userId, ADMIN_ID_PREFIX) && ParseInt(IdText(userId)).Some?
    ensures r.AdminLoaded? && r.admin.Some? ==>
              r.admin.value in admins && Some(r.admin.value.id) == ParseInt(IdText(userId))
    ensures r.AdminLoaded? && r.admin.None? ==>
              forall i :: 0 <= i < |admins| ==> Some(admins[i].id) != ParseInt(IdText(userId))
    ensures r.UserLoaded? && r.user.Some? ==>
              r.user.value in users && Some(r.user.value.id) == ParseInt(IdText(userId))
    ensures r.UserLoaded? && r.user.None? ==>
              forall i :: 0 <= i < |users| ==> Some(users[i].id) != ParseInt(IdText(userId))
  {
    var n := ParseInt(IdText(userId));
    if n.None? then BadId
    else if StartsWith(userId, ADMIN_ID_PREFIX) then AdminLoaded(FindAdminById(admins, n.value))
    else UserLoaded(FindById(users, n.value))
  }

  /** Round trip: loading `Admin.get_id()` looks up that admin's id in the admins table. */
  lemma AdminIdRoundTrip(users: seq<User>, admins: seq<Admin>, a: Admin)
    ensures LoadUser(users, admins, a.GetId()) == AdminLoaded(FindAdminById(admins, a.id))
    ensures a in admins ==>
              LoadUser(users, admins, a.GetId()).admin.Some? && LoadUser(users, admins, a.GetId()).admin.value.id == a.id
  {
    var digits := IntToString(a.id);
    IntToStringHasNoSeparator(a.id, '_');
    assert a.GetId() == "admin" + ['_'] + digits;
    SplitAtFirst("admin", digits, '_');
    SplitWithoutSeparator(digits, '_');
    ParseIntOfIntToString(a.id);
    assert IdText(a.GetId()) == digits;
  }

  /** A formatted integer never starts with `admin_`. */
  lemma IntToStringIsNotAdminId(n: int)
    ensures !StartsWith(IntToString(n), ADMIN_ID_PREFIX)
  {
    var s := IntToString(n);
    if n < 0 {
      assert s[0] == '-';
    } else {
      assert IsDigit(s[0]);
    }
  }

  /** Round trip: a user's session id, `str(user.id)`, loads that user's id from the users table. */
  lemma UserIdRoundTrip(users: seq<User>, admins: seq<Admin>, u: User)
    ensures LoadUser(users, admins, IntToString(u.id)) == UserLoaded(FindById(users, u.id))
    ensures u in users ==>
              LoadUser(users, admins, IntToString(u.id)).user.Some? && LoadUser(users, admins, IntToString(u.id)).user.value.id == u.id
  {
    IntToStringIsNotAdminId(u.id);
    ParseIntOfIntToString(u.id);
  }

  /** Only the second `_`-piece is read: anything after a further underscore is ignored. */
  lemma TrailingPiecesIgnored(users: seq<User>, admins: seq<Admin>, id: int, rest: string)
    ensures LoadUser(users, admins, ADMIN_ID_PREFIX + IntToString(id) + "_" + rest)
            == AdminLoaded(FindAdminById(admins, id))
  {
    var digits := IntToString(id);
    var s := ADMIN_ID_PREFIX + digits + "_" + rest;
    IntToStringHasNoSeparator(id, '_');
    assert s == "admin" + ['_'] + (digits + ['_'] + rest);
    SplitAtFirst("admin", digits + ['_'] + rest, '_');
    SplitAtFirst(digits, rest, '_');
    assert Split(s, '_')[1] == digits;
    ParseIntOfIntToString(id);
  }

  /** An admin id whose numeric part is not an integer is refused. */
  lemma MalformedAdminIdRefused(users: seq<User>, admins: seq<Admin>, tail: string)
    requires '_' !in tail
    requires ParseInt(tail).None?
    ensures LoadUser(users, admins, ADMIN_ID_PREFIX + tail) == BadId
  {
    assert ADMIN_ID_PREFIX + tail == "admin" + ['_'] + tail;
    SplitAtFirst("admin", tail, '_');
    SplitWithoutSeparator(tail, '_');
  }
}

=== FILE: user_model.dfy ===
/**
 * Shop users (app/models/user.py): the password-strength rule, the guarded
 * password setter, and the lookup of a user's Active subscription. bcrypt is
 * not modelled: the hash `set_password` stores is supplied by the caller.
 */
module UserModel {
  import opened Wrappers
  import opened SubscriptionModel
  import Tables

  /** Billing details kept on the user by the payment-update route. */
  datatype BillingInfo = BillingInfo(last4: string, expMonth: string, expYear: string)

  /** `re.search(r'[lo-hi]', s)`: some character of `s` lies in the range. */
  function HasCharIn(s: string, lo: char, hi: char): (r: bool)
    ensures r <==> exists i :: 0 <= i < |s| && lo <= s[i] <= hi
    decreases |s|
  {
    if |s| == 0 then false
    else (lo <= s[0] <= hi) || HasCharIn(s[1..], lo, hi)
  }

  /**
   * `User._validate_password`: at least 8 characters, an upper-case letter,
   * a lower-case letter and a digit (ASCII ranges).
   */
  function ValidatePassword(password: string): (ok: bool)
    ensures |password| < 8 ==> !ok
    ensures (forall i :: 0 <= i < |password| ==> !('A' <= password[i] <= 'Z')) ==> !ok
    ensures (forall i :: 0 <= i < |password| ==> !('a' <= password[i] <= 'z')) ==> !ok
    ensures (forall i :: 0 <= i < |password| ==> !('0' <= password[i] <= '9')) ==> !ok
    ensures && |password| >= 8
            && (exists i :: 0 <= i < |password| && 'A' <= password[i] <= 'Z')
            && (exists i :: 0 <= i < |password| && 'a' <= password[i] <= 'z')
            && (exists i :: 0 <= i < |password| && '0' <= password[i] <= '9')
            ==> ok
  {
    if |password| < 8 then false
    else if !HasCharIn(password, 'A', 'Z') then false
    else if !HasCharIn(password, 'a', 'z') then false
    else if !HasCharIn(password, '0', '9') then false
    else true
  }

  /** A password meeting all four conditions is accepted. */
  lemma StrongPasswordExample()
    ensures ValidatePassword("Secret123")
  {
    var pw := "Secret123";
    assert 'A' <= pw[0] <= 'Z' && 'a' <= pw[1] <= 'z' && '0' <= pw[6] <= '9';
  }

  /** Seven characters are too few, whatever they are. */
  lemma ShortPasswordExample()
    ensures !ValidatePassword("Secre12")
  {
  }

  /** Without a digit the password is refused. */
  lemma DigitlessPasswordExample()
    ensures !ValidatePassword("SecretPass")
  {
    var pw := "SecretPass";
    assert forall i :: 0 <= i < |pw| ==> !('0' <= pw[i] <= '9');
  }

  class User {
    const id: int
    const name: string
    const email: string
    const address: Option<string>
    var passwordHash: string
    var billingInfo: Option<BillingInfo>

    constructor (id: int, name: string, email: string, address: Option<string>)
      ensures this.id == id && this.name == name && this.email == email && this.address == address
      ensures passwordHash == "" && billingInfo == None
    {
      this.id := id;
      this.name := name;
      this.email := email;
      this.address := address;
      passwordHash := "";
      billingInfo := None;
    }

    /**
     * `User.set_password`: a password that fails the strength rule raises and
     * leaves the hash as it was; otherwise the hash `hashed` (bcrypt's output
     * for `password`) is stored.
     */
    method SetPassword(password: string, hashed: string) returns (ok: bool)
      modifies this`passwordHash
      ensures ok == ValidatePassword(password)
      ensures passwordHash == if ok then hashed else old(passwordHash)
    {
      if !ValidatePassword(password) {
        return false;
      }
      passwordHash := hashed;
      ok := true;
    }
  }

  /** Index of the user's first row whose stored status is Active. */
  function FirstActiveIndex(rows: seq<Subscription>, userId: int): Option<nat>
  {
    Tables.FirstIndex(rows, (s: Subscription) => ActiveOf(s, userId))
  }

  /**
   * `User.active_subscription`: the first of the user's subscriptions, in
   * table order, whose stored status is Active; the end date is not looked at.
   */
  function ActiveSubscription(rows: seq<Subscription>, userId: int): (r: Option<Subscription>)
    ensures r.Some? ==> exists i :: 0 <= i < |rows| && rows[i] == r.value && ActiveOf(rows[i], userId)
                                     && forall j :: 0 <= j < i ==> !ActiveOf(rows[j], userId)
    ensures r.None? <==> forall i :: 0 <= i < |rows| ==> !ActiveOf(rows[i], userId)
  {
    match FirstActiveIndex(rows, userId)
    case None => None
    case Some(i) => Some(rows[i])
  }

  /** `active_subscription` ignores expiry, unlike `is_active`: an expired Active row is still returned. */
  lemma ActiveSubscriptionIgnoresExpiry()
    ensures var s := Subscription(1, PlanId(1), Active, 0, Some(10));
            ActiveSubscription([s], 1) == Some(s) && !IsActive(s, 20)
  {
    var s := Subscription(1, PlanId(1), Active, 0, Some(10));
    assert ActiveOf([s][0], 1);
  }

  /**
   * Once the user's Active rows are retired (by `create_subscription` or by the
   * subscribe route) and a new Active subscription is inserted, the user's
   * `active_subscription` is the new one.
   */
  lemma ActiveSubscriptionAfterInsert(before: seq<Subscription>, after: seq<Subscription>, sub: Subscription)
    requires sub.status == Active
    requires RetiresActive(before, after, sub.userId)
    ensures ActiveSubscription(after + [sub], sub.userId) == Some(sub)
  {
    InsertAfterRetireLeavesOneActive(before, after, sub);
    var rows := after + [sub];
    assert forall j :: 0 <= j < |after| ==> rows[j] == after[j];
    assert ActiveOf(rows[|after|], sub.userId);
  }

  // ---------------------------------------------------------------------------
  // the users table

  /** No two users share an e-mail address. */
  predicate UniqueEmails(rows: seq<User>) {
    forall i, j :: 0 <= i < j < |rows| ==> rows[i].email != rows[j].email
  }

  function UserIds(rows: seq<User>): seq<int> {
    seq(|rows|, i requires 0 <= i < |rows| => rows[i].id)
  }

  /** `User.query.filter_by(email=email).first()` */
  function FindByEmail(rows: seq<User>, email: string): (r: Option<User>)
    ensures r.Some? ==> r.value in rows && r.value.email == email
    ensures r.None? <==> forall i :: 0 <= i < |rows| ==> rows[i].email != email
  {
    Tables.First(rows, (u: User) => u.email == email)
  }

  /** `User.query.get(id)`: the same first-match lookup as `FindByEmail`, keyed by id. */
  function FindById(rows: seq<User>, id: int): (r: Option<User>)
    ensures r.Some? ==> r.value in rows && r.value.id == id
    ensures r.None? <==> forall i :: 0 <= i < |rows| ==> rows[i].id != id
  {
    Tables.First(rows, (u: User) => u.id == id)
  }

  class UserTable {
    var rows: seq<User>

    constructor ()
      ensures rows == []
    {
      rows := [];
    }
  }
}

=== FILE: wrappers.dfy ===
/** Option values for lookups that may find nothing (`query.first()`, `query.get()`). */
module Wrappers {
  datatype Option<+T> = None | Some(value: T)
}
